=== FILE: README.md ===
# AirReceiver audio output queue, modelled in Dafny

AirReceiver plays AirPlay audio. Incoming packets are stamped with an RTP frame time. An
enqueuer thread keeps them in a `LinkedSortedQueue`, a doubly-linked list sorted by key
with a pointer at each end. The thread drains the list into a Java Sound output line,
smallest frame time first. Along the way `TardyYetReliableAudioOutputQueue` does several
things:

- it converts unsigned PCM to signed;
- it measures how far each packet's due time lies beyond the frames already written;
- it keeps the last frame written;
- it applies the requested gain;
- it discards the whole queue when a packet is due more than twenty seconds beyond the
  frames already written, that is, when the line lags the sender by that much.

The project has five modules:

- `Entries` (`entries.dfy`): the abstract view of the queue, a sequence of key/value
  entries. It holds the specification functions the queue is proved against:
  - `Upsert`: sorted insert-or-replace;
  - `RemoveKey`: remove by key;
  - `Lookup`;
  - `ToMap`: the `TreeMap` snapshot.

  It also holds the lemmas about those functions.
- `SortedQueue` (`sorted_queue.dfy`): `LinkedSortedQueue` as a heap structure.
  - `Node` objects have fixed `key`/`value` and mutable `previous`/`next` links.
  - The queue has `head` and `tail`, plus a ghost `nodes` that lists the chain met from
    `head`.
  - `Valid()` requires four things: the forward links, the mirrored backward links,
    `head`/`tail` at the chain's ends, and strictly ascending keys.
  - Every operation is a method that rewires the links in place. Its contract ties the new
    `Contents()` to the specification function of the old contents.
  - The recursive walks (`insertNode`, `find`, `doCountElements`, `addNodesToMap`,
    `traverseNodesAndRemove`) become loops.
- `AudioClock` (`audio_clock.dfy`): frame time against line time, all in Java `long`
  arithmetic with explicit wrap-around modulo 2^64. Also the staleness rule and the gain
  bound.
- `Pcm` (`pcm.dfy`): Java signed bytes, the in-place unsigned-to-signed conversion of the
  high bytes, the initial "last frame", and the copy of the last frame written.
- `AudioOutput` (`audio_output_queue.dfy`): the output queue as a class. It has:
  - the constructor's choice of line format and its frame size;
  - the clock operations, gain, close and flush;
  - `enqueue`;
  - one pass of the drain loop, split into its steps;
  - the drain loop itself.

The output line is not a device here:

- the byte count it accepts on each write is an argument;
- its playback position is an argument;
- its MASTER_GAIN control is three constants plus a field holding the control's value.

Keys are unbounded integers in `SortedQueue`. The output queue adds the invariant that every
queued key is a Java `long`.

## Model

| member | source | states |
|---|---|---|
| Entries.UpsertAt | src/main/java/org/gps/air/receiver/Impl/LinkedSortedQueue.java:155-215 | Linking a new key after all smaller keys and before all larger ones yields exactly the sorted insertion `Upsert`. |
| Entries.UpsertReplaceAt | src/main/java/org/gps/air/receiver/Impl/LinkedSortedQueue.java:139-153 | Replacing the entry that holds the key is `Upsert` of a present key. Only that one position changes. |
| Entries.UpsertAscending | src/main/java/org/gps/air/receiver/Impl/LinkedSortedQueue.java:133-224 | Insertion keeps keys strictly ascending, and afterwards `Lookup` of the key gives the new value. |
| Entries.UpsertKeys | src/main/java/org/gps/air/receiver/Impl/LinkedSortedQueue.java:318-339 | put adds exactly its key to the key set. The length grows by one if and only if the key was absent. |
| Entries.UpsertElements | src/main/java/org/gps/air/receiver/Impl/LinkedSortedQueue.java:318-339 | Every entry after put is an entry from before, or the new key/value pair. |
| Entries.UpsertMap | src/main/java/org/gps/air/receiver/Impl/LinkedSortedQueue.java:318-339 | Seen as a map, put is map update at the key. |
| Entries.RemoveAt | src/main/java/org/gps/air/receiver/Impl/LinkedSortedQueue.java:237-291 | On sorted entries, removing the key at index i cuts out exactly that entry, and `Lookup` finds its value. |
| Entries.RemoveAbsent | src/main/java/org/gps/air/receiver/Impl/LinkedSortedQueue.java:256-258 | A key that is not held is neither removed nor found. |
| Entries.RemoveUndoesUpsert | src/main/java/org/gps/air/receiver/Impl/LinkedSortedQueue.java:237-291 | remove undoes put. Removing a key after inserting it leaves what removing it from the original leaves. |
| Entries.CutProperties | src/main/java/org/gps/air/receiver/Impl/LinkedSortedQueue.java:262-288 | Cutting one node out keeps the keys ascending and drops exactly that key from the key set. |
| Entries.RemoveMap | src/main/java/org/gps/air/receiver/Impl/LinkedSortedQueue.java:237-291 | Seen as a map, remove is map subtraction of the key. |
| Entries.ToMapKeys | src/main/java/org/gps/air/receiver/Impl/LinkedSortedQueue.java:360-375 | The element map's keys are exactly the queue's keys. |
| Entries.ToMapValues | src/main/java/org/gps/air/receiver/Impl/LinkedSortedQueue.java:360-375 | On sorted entries, the element map sends each key to the value stored with it. |
| Entries.ToMapSnoc | src/main/java/org/gps/air/receiver/Impl/LinkedSortedQueue.java:370-375 | Adding one more node with a new key to the map built so far is a map update. |
| SortedQueue.Node.constructor | src/main/java/org/gps/air/receiver/Impl/LinkedSortedQueue.java:119-131 | A new node holds the given key and value and is linked to nothing. |
| SortedQueue.LinkedSortedQueue.KeyDeterminesNode | src/main/java/org/gps/air/receiver/Impl/LinkedSortedQueue.java:293-315 | Two nodes of a valid chain with equal keys are the same node, so find from either end reaches the same node. |
| SortedQueue.LinkedSortedQueue.constructor | src/main/java/org/gps/air/receiver/Impl/LinkedSortedQueue.java:16-20 | A new queue is valid and empty. |
| SortedQueue.LinkedSortedQueue.IsEmpty | src/main/java/org/gps/air/receiver/Impl/LinkedSortedQueue.java:22-24 | A null `head` means exactly that the queue holds no entries. |
| SortedQueue.LinkedSortedQueue.FirstKey | src/main/java/org/gps/air/receiver/Impl/LinkedSortedQueue.java:26-31 | None if and only if empty. Otherwise a held key, no larger than any other key. |
| SortedQueue.LinkedSortedQueue.Clear | src/main/java/org/gps/air/receiver/Impl/LinkedSortedQueue.java:95-97 | The queue is valid and empty. |
| SortedQueue.LinkedSortedQueue.DropHead | src/main/java/org/gps/air/receiver/Impl/LinkedSortedQueue.java:262-270 | The chain loses its first node and stays valid. `head` becomes null only if that node was the only one, and `tail` stays otherwise. |
| SortedQueue.LinkedSortedQueue.DropTail | src/main/java/org/gps/air/receiver/Impl/LinkedSortedQueue.java:272-280 | The chain loses its last node and stays valid. `tail` becomes null only if that node was the only one, and `head` stays otherwise. |
| SortedQueue.LinkedSortedQueue.FirstEntryRemove | src/main/java/org/gps/air/receiver/Impl/LinkedSortedQueue.java:69-86 | Returns the first entry, smaller than every remaining key, and removes exactly it. On an empty queue it returns None and changes nothing. |
| SortedQueue.LinkedSortedQueue.FirstKeyRemove | src/main/java/org/gps/air/receiver/Impl/LinkedSortedQueue.java:33-49 | Like FirstEntryRemove, returning the smallest key. |
| SortedQueue.LinkedSortedQueue.FirstKeyValueRemove | src/main/java/org/gps/air/receiver/Impl/LinkedSortedQueue.java:51-67 | Like FirstEntryRemove, returning the value of the smallest key. |
| SortedQueue.LinkedSortedQueue.Locate | src/main/java/org/gps/air/receiver/Impl/LinkedSortedQueue.java:133-224 | The insertNode walk stops at a node where the key is equal, lies between the node and its predecessor, or lies beyond the last or first node. The "corrupt" branches are unreachable on a valid queue. |
| SortedQueue.LinkedSortedQueue.SpliceBefore | src/main/java/org/gps/air/receiver/Impl/LinkedSortedQueue.java:159-165 | Linking between a node and its predecessor inserts the entry at that index and keeps the queue valid. |
| SortedQueue.LinkedSortedQueue.SpliceLast | src/main/java/org/gps/air/receiver/Impl/LinkedSortedQueue.java:172-181 | Linking after the last node appends the entry, makes it the tail and keeps the queue valid. |
| SortedQueue.LinkedSortedQueue.SpliceFirst | src/main/java/org/gps/air/receiver/Impl/LinkedSortedQueue.java:196-200 | Linking before the first node prepends the entry, makes it the head and keeps the queue valid. |
| SortedQueue.LinkedSortedQueue.ReplaceAsWritten | src/main/java/org/gps/air/receiver/Impl/LinkedSortedQueue.java:139-153 | The equal-key branch as written. An interior node is replaced and the queue stays valid. A sole node is left as it was. Replacing the first node leaves `head` on the old node and the queue invalid. Replacing the last node leaves `tail` off the chain. |
| SortedQueue.LinkedSortedQueue.ReplaceNode | src/main/java/org/gps/air/receiver/Impl/LinkedSortedQueue.java:139-153 | The corrected equal-key branch, which also re-aims `head`/`tail`. It replaces the node at its index and keeps the queue valid. |
| SortedQueue.LinkedSortedQueue.LinkNew | src/main/java/org/gps/air/receiver/Impl/LinkedSortedQueue.java:155-221 | A new key is linked where the walk stopped. The result is `Upsert` and stays valid. `head` moves exactly for a new minimum and `tail` exactly for a new maximum. |
| SortedQueue.LinkedSortedQueue.Put | src/main/java/org/gps/air/receiver/Impl/LinkedSortedQueue.java:318-339 | An absent key gives the valid sorted insertion `Upsert`, with `head`/`tail` moving exactly at a new extreme. A present key adds no node. An interior duplicate is replaced. A duplicate at either end, or of the only key, behaves as ReplaceAsWritten describes. |
| SortedQueue.LinkedSortedQueue.PutFromTail | src/main/java/org/gps/air/receiver/Impl/LinkedSortedQueue.java:99-101 | put(k, v) searches from the tail. Unless the key duplicates an end key, the result is the valid `Upsert`. |
| SortedQueue.LinkedSortedQueue.PutReplacing | src/main/java/org/gps/air/receiver/Impl/LinkedSortedQueue.java:318-339 | Corrected put: every insertion is the valid `Upsert`, and the size grows exactly for a new key. |
| SortedQueue.LinkedSortedQueue.Find | src/main/java/org/gps/air/receiver/Impl/LinkedSortedQueue.java:293-315 | null if and only if the key is absent. Otherwise the node at the key's index. |
| SortedQueue.LinkedSortedQueue.Remove | src/main/java/org/gps/air/receiver/Impl/LinkedSortedQueue.java:237-291 | The result is `RemoveKey` and stays valid, and the key set loses exactly the key. None if and only if the key is absent. Otherwise the entry holds the key and its looked-up value. `head`/`tail` move only when that end held the key. A miss changes no node, `head` or `tail`. |
| SortedQueue.LinkedSortedQueue.RemoveNode | src/main/java/org/gps/air/receiver/Impl/LinkedSortedQueue.java:260-290 | The found node is cut out by head, tail or interior unlinking. The contents lose exactly that entry, which is returned. |
| SortedQueue.LinkedSortedQueue.Unlink | src/main/java/org/gps/air/receiver/Impl/LinkedSortedQueue.java:282-288 | Joining an interior node's neighbours removes exactly that node and keeps the queue valid. |
| SortedQueue.LinkedSortedQueue.RemoveValue | src/main/java/org/gps/air/receiver/Impl/LinkedSortedQueue.java:88-93 | remove(k) gives the `Lookup` value of k, or None on an empty queue, and leaves `RemoveKey`. |
| SortedQueue.LinkedSortedQueue.ClearSpecified | src/main/java/org/gps/air/receiver/Impl/LinkedSortedQueue.java:103-117 | Drops the count - 1 smallest entries, with int wrap of `--count`, but never the last node. `tail` is unchanged, and a non-empty queue stays non-empty. |
| SortedQueue.LinkedSortedQueue.Size | src/main/java/org/gps/air/receiver/Impl/LinkedSortedQueue.java:345-358 | Counting along the chain gives the number of entries. |
| SortedQueue.DecrementInt | src/main/java/org/gps/air/receiver/Impl/LinkedSortedQueue.java:111 | Java's `--count` stays in the int range and is congruent to count - 1 modulo 2^32. |
| SortedQueue.TrimmedCount | src/main/java/org/gps/air/receiver/Impl/LinkedSortedQueue.java:109-117 | The number of nodes clearSpecified drops: never all of a non-empty queue, at most the decremented count, and either none, the decremented count, or all but the last. |
| SortedQueue.TrimmedCountRecurrence | src/main/java/org/gps/air/receiver/Impl/LinkedSortedQueue.java:109-117 | That number satisfies traverseNodesAndRemove's recursion: while `--count` is positive and `head.next` exists, one node goes and the rest is trimmed with the decremented count. |
| SortedQueue.LinkedSortedQueue.GetElementMap | src/main/java/org/gps/air/receiver/Impl/LinkedSortedQueue.java:360-375 | The map has exactly the queue's keys, each mapped to its stored value. |
| SortedQueue.DuplicateMaximumScenario | src/main/java/org/gps/air/receiver/Impl/LinkedSortedQueue.java:139-153 | put(1), put(2), put(2): the chain holds the new value, but `tail` is the old node, off the chain and still without a successor, and the queue is invalid. |
| SortedQueue.DuplicateMaximumLosesLaterKey | src/main/java/org/gps/air/receiver/Impl/LinkedSortedQueue.java:172-181 | After that duplicate, put(3) from the stale tail takes the "add at the end" branch and links 3 after the detached node. `tail` holds 3, but the chain from `head` still holds only 1 and 2, so 3 never reaches the drain. |
| SortedQueue.DuplicateMinimumScenario | src/main/java/org/gps/air/receiver/Impl/LinkedSortedQueue.java:139-153 | put(1), put(2), put(1): the old value for 1 remains, unlike `Upsert`, and the queue is invalid. |
| SortedQueue.DuplicateMaximumCorrected | src/main/java/org/gps/air/receiver/Impl/LinkedSortedQueue.java:139-153 | The same calls with the corrected put give a valid queue holding the new value. |
| AudioClock.Wrap | src/main/java/org/gps/air/receiver/Impl/TardyYetReliableAudioOutputQueue.java:242-281 | The `long` a value wraps to is congruent to it modulo 2^64, and is the value itself when that fits in a `long`. |
| AudioClock.Add | src/main/java/org/gps/air/receiver/Impl/TardyYetReliableAudioOutputQueue.java:254 | Java's `long` sum: congruent to the exact sum modulo 2^64, and equal to it without overflow. |
| AudioClock.Sub | src/main/java/org/gps/air/receiver/Impl/TardyYetReliableAudioOutputQueue.java:242 | Java's `long` difference: congruent to the exact difference modulo 2^64, and equal to it without overflow. |
| AudioClock.GapFrames | src/main/java/org/gps/air/receiver/Impl/TardyYetReliableAudioOutputQueue.java:332 | Without overflow, the gap is the exact difference between the entry's line time and the frames written. |
| AudioClock.FramesWrittenAfter | src/main/java/org/gps/air/receiver/Impl/TardyYetReliableAudioOutputQueue.java:342 | Without overflow, the frames written grow by exactly the whole frames accepted, and never decrease. |
| AudioClock.ClampGain | src/main/java/org/gps/air/receiver/Impl/TardyYetReliableAudioOutputQueue.java:221-234 | A gain within the bounds is kept, a gain below them becomes the minimum, and a gain above them becomes the maximum. |
| AudioClock.LineFrameRoundTrip | src/main/java/org/gps/air/receiver/Impl/TardyYetReliableAudioOutputQueue.java:267-282 | Converting line time to frame time and back is the identity, even with wrap-around. |
| AudioClock.FrameLineRoundTrip | src/main/java/org/gps/air/receiver/Impl/TardyYetReliableAudioOutputQueue.java:267-282 | Converting frame time to line time and back is the identity, even with wrap-around. |
| AudioClock.OffsetForAligns | src/main/java/org/gps/air/receiver/Impl/TardyYetReliableAudioOutputQueue.java:237-245 | After setFrameTime, the given frame time is due exactly at the given line time. |
| AudioClock.GapIsFrameDistance | src/main/java/org/gps/air/receiver/Impl/TardyYetReliableAudioOutputQueue.java:315-332 | The next frame time plus the gap is the entry's frame time, whatever the offset. |
| AudioClock.IsStale | src/main/java/org/gps/air/receiver/Impl/TardyYetReliableAudioOutputQueue.java:350-351 | The flush test holds if and only if the entry's line time lies more than twenty seconds' worth of frames beyond the frames already written. |
| AudioClock.DueNeverStale | src/main/java/org/gps/air/receiver/Impl/TardyYetReliableAudioOutputQueue.java:350-354 | An entry already due or overdue, with a gap of at most zero frames, never flushes the queue. |
| AudioClock.StaleMonotone | src/main/java/org/gps/air/receiver/Impl/TardyYetReliableAudioOutputQueue.java:350-354 | An entry due further beyond the frames written is stale whenever a nearer one is. |
| Pcm.Unsigned | src/main/java/org/gps/air/receiver/Impl/TardyYetReliableAudioOutputQueue.java:328 | `b & 0xff` lies in 0..255, keeps the low seven bits, and has its top bit set if and only if the byte is negative. |
| Pcm.ToSignedSample | src/main/java/org/gps/air/receiver/Impl/TardyYetReliableAudioOutputQueue.java:328 | Converting a high byte flips its sign, so the result is negative if and only if the input is not, and shifts it by 128 modulo 256. |
| Pcm.ToByte | src/main/java/org/gps/air/receiver/Impl/TardyYetReliableAudioOutputQueue.java:328 | The `(byte)` cast is congruent to its argument modulo 256 and is the identity on byte values. |
| Pcm.ToSignedFlipsTopBit | src/main/java/org/gps/air/receiver/Impl/TardyYetReliableAudioOutputQueue.java:327-329 | The conversion adds 128 modulo 256 to the unsigned byte. It flips the top bit and keeps the rest. |
| Pcm.SampleShiftedByMidpoint | src/main/java/org/gps/air/receiver/Impl/TardyYetReliableAudioOutputQueue.java:323-329 | Converting the high byte turns an offset-binary 16-bit sample into two's complement: the value minus 0x8000. |
| Pcm.ToSignedInvolution | src/main/java/org/gps/air/receiver/Impl/TardyYetReliableAudioOutputQueue.java:328 | Converting a byte twice restores it. |
| Pcm.ConvertedInvolution | src/main/java/org/gps/air/receiver/Impl/TardyYetReliableAudioOutputQueue.java:327-329 | Buffer conversion keeps the length and the low bytes, and converting twice restores the buffer. |
| Pcm.InitialFrameIsConvertedZeros | src/main/java/org/gps/air/receiver/Impl/TardyYetReliableAudioOutputQueue.java:127-129 | The initial last frame is the conversion of an all-zero unsigned frame. |
| Pcm.ConvertUnsignedToSigned | src/main/java/org/gps/air/receiver/Impl/TardyYetReliableAudioOutputQueue.java:321-330 | In place, every even-index byte is converted and every odd-index byte is kept. |
| Pcm.NewLastFrame | src/main/java/org/gps/air/receiver/Impl/TardyYetReliableAudioOutputQueue.java:127-129 | A fresh array holding -128 at even indices and 0 at odd ones. |
| Pcm.CopyLastFrame | src/main/java/org/gps/air/receiver/Impl/TardyYetReliableAudioOutputQueue.java:343-346 | The last frame becomes the payload's final `bytesPerFrame` bytes. |
| AudioOutput.LineFormat | src/main/java/org/gps/air/receiver/Impl/TardyYetReliableAudioOutputQueue.java:105-121 | No line for an unsupported encoding. Otherwise a signed line with the stream's other parameters. Conversion happens if and only if the stream is unsigned. |
| AudioOutput.BytesPerFrame | src/main/java/org/gps/air/receiver/Impl/TardyYetReliableAudioOutputQueue.java:125 | The frame size is the frame's bit count in whole bytes, rounded toward zero: for a non-negative bit count b, `8 * n <= b < 8 * n + 8`. |
| AudioOutput.JavaDiv | src/main/java/org/gps/air/receiver/Impl/TardyYetReliableAudioOutputQueue.java:125 | Java's int division truncates toward zero. The remainder `a - q * b` lies in `[0, b)` for a non-negative dividend and in `(-b, 0]` for a negative one. |
| AudioOutput.TardyYetReliableAudioOutputQueue.constructor | src/main/java/org/gps/air/receiver/Impl/TardyYetReliableAudioOutputQueue.java:98-153 | An empty valid queue. It holds the line's frame size and sample rate, an initial last frame, and `closing` false. Conversion is on if and only if the stream is unsigned. Frames written, the offset and the requested gain start at zero, and the line gain is the control's initial value. |
| AudioOutput.TardyYetReliableAudioOutputQueue.ConvertFrameToLineTime | src/main/java/org/gps/air/receiver/Impl/TardyYetReliableAudioOutputQueue.java:280-282 | The line time returned converts back to the given frame time. |
| AudioOutput.TardyYetReliableAudioOutputQueue.GetNextFrameTime | src/main/java/org/gps/air/receiver/Impl/TardyYetReliableAudioOutputQueue.java:267-269 | The frame time returned is due exactly at the end of what has been written. |
| AudioOutput.TardyYetReliableAudioOutputQueue.GetNowFrameTime | src/main/java/org/gps/air/receiver/Impl/TardyYetReliableAudioOutputQueue.java:253-255 | The frame time returned is due exactly at the line's playback position. |
| AudioOutput.TardyYetReliableAudioOutputQueue.NextTimesAgree | src/main/java/org/gps/air/receiver/Impl/TardyYetReliableAudioOutputQueue.java:262-282 | The next frame time, converted to line time, is the next line time. |
| AudioOutput.TardyYetReliableAudioOutputQueue.SetFrameTime | src/main/java/org/gps/air/receiver/Impl/TardyYetReliableAudioOutputQueue.java:237-245 | Afterwards the frame time converts exactly to the line time. |
| AudioOutput.TardyYetReliableAudioOutputQueue.CurrentLineGain | src/main/java/org/gps/air/receiver/Impl/TardyYetReliableAudioOutputQueue.java:163-173 | getLineGain reads the control's value, or 0 when the line has no gain control. ApplyRequestedGain uses it for the drain loop's test. |
| AudioOutput.TardyYetReliableAudioOutputQueue.SetLineGain | src/main/java/org/gps/air/receiver/Impl/TardyYetReliableAudioOutputQueue.java:221-234 | With a gain control, the control gets the clamped gain. Without one, nothing changes. |
| AudioOutput.TardyYetReliableAudioOutputQueue.SetGain | src/main/java/org/gps/air/receiver/Impl/TardyYetReliableAudioOutputQueue.java:184-186 | The requested gain is recorded. |
| AudioOutput.TardyYetReliableAudioOutputQueue.GetGain | src/main/java/org/gps/air/receiver/Impl/TardyYetReliableAudioOutputQueue.java:200-202 | Returns the requested gain. |
| AudioOutput.TardyYetReliableAudioOutputQueue.Close | src/main/java/org/gps/air/receiver/Impl/TardyYetReliableAudioOutputQueue.java:191-194 | `closing` becomes true. No member sets it back. |
| AudioOutput.TardyYetReliableAudioOutputQueue.Flush | src/main/java/org/gps/air/receiver/Impl/TardyYetReliableAudioOutputQueue.java:207-213 | The queue is valid and empty afterwards, even if it was inconsistent before, for instance after a duplicate end key. |
| AudioOutput.TardyYetReliableAudioOutputQueue.Enqueue | src/main/java/org/gps/air/receiver/Impl/TardyYetReliableAudioOutputQueue.java:369-372 | The packet is put under its frame time. Unless that time duplicates an end key, the queue stays valid and the contents are `Upsert`. |
| AudioOutput.TardyYetReliableAudioOutputQueue.ApplyRequestedGain | src/main/java/org/gps/air/receiver/Impl/TardyYetReliableAudioOutputQueue.java:310-312 | A requested gain different from the line's is clamped into the control, when there is one. A request within the control's bounds is then what getLineGain reads, so the next pass does not apply it again. |
| AudioOutput.TardyYetReliableAudioOutputQueue.TakeAndWrite | src/main/java/org/gps/air/receiver/Impl/TardyYetReliableAudioOutputQueue.java:314-346 | The first entry is removed and written. Its samples are converted if required, and the gap is measured before the write. The frames written advance and the last frame is copied. |
| AudioOutput.TardyYetReliableAudioOutputQueue.WritePacket | src/main/java/org/gps/air/receiver/Impl/TardyYetReliableAudioOutputQueue.java:315-346 | Conversion, gap, frames-written update and last-frame copy, each stated exactly. |
| AudioOutput.TardyYetReliableAudioOutputQueue.DrainStep | src/main/java/org/gps/air/receiver/Impl/TardyYetReliableAudioOutputQueue.java:309-355 | One drain pass. It applies the gain rule, takes the first entry and writes it, and flushes the whole queue if and only if the entry is stale. Otherwise the queue loses exactly its first entry. |
| AudioOutput.TardyYetReliableAudioOutputQueue.DrainNext | src/main/java/org/gps/air/receiver/Impl/TardyYetReliableAudioOutputQueue.java:309-355 | A drain pass as the loop sees it. The queue keeps its tail after the first entry, or is empty. |
| AudioOutput.TardyYetReliableAudioOutputQueue.Drain | src/main/java/org/gps/air/receiver/Impl/TardyYetReliableAudioOutputQueue.java:309-355 | The drain loop ends with an empty valid queue. What was written is a non-empty prefix of the queue, if the queue was non-empty, in strictly ascending frame time. |
| AudioOutput.Open | src/main/java/org/gps/air/receiver/Impl/TardyYetReliableAudioOutputQueue.java:98-140 | No queue if and only if the encoding is unsupported or the frame size is zero or negative, the three cases in which the Java constructor throws: LineUnavailableException, ArithmeticException when the buffer size is logged in frames, and NegativeArraySizeException. Otherwise a fresh, empty, valid queue. |

## Left out

- Threads, `synchronized`, `volatile`, the CountDownLatch that waits for 300 packets, the
  thread interrupt in `close`, and the outer `while (!m_closing)` loop. The model is
  sequential: `Drain` is one run of the inner loop.
- Java Sound itself: opening the line, the buffer-size computation, `start`, and the
  device's `write` and `getLongFramePosition`. The count accepted by each write and the
  playback position are arguments.
- The seconds-time functions, `m_secondsTimeOffset` and `Math.round`, which are floating
  point. `SetFrameTime` takes the rounded line time as an argument.
- Logging, `System.gc`, `print` and the commented-out drop counters.
- `m_latestSeenFrameTime`, which only appears in a log message, and `m_packetSizeFrames`,
  which is stored and never used.
- LinkedSortedQueue's `dataHolderNode` field. It only relays the new node into `head` and
  `tail` when a put finds the queue empty, and it is nulled by clear. The model assigns
  `head` and `tail` directly.
- Keys are integers rather than any `Comparable`, with no null keys.
- AudioClock.IsStale: Java divides in `double` and compares with 20. Here the comparison is
  exact over the reals, so rounding at the boundary is not modelled. Gains are reals, not
  `float`, and NaN gains are not modelled.
- SortedQueue.LinkedSortedQueue.Size: the Java `int` count could overflow past 2^31 - 1
  entries. The model returns the exact count.
- AudioOutput.BytesPerFrame: `channels * sampleSizeInBits` is not wrapped to 32 bits.
- The recursive walks become loops. Java's risk of a StackOverflowError on a very long
  queue is not modelled.
- Null dereferences become preconditions:
  - GetElementMap requires a non-empty queue, since `addNodesToMap(null)` would
    dereference null;
  - RemoveValue requires a present key on a non-empty queue;
  - ClearSpecified requires a non-empty queue when anything would be dropped;
  - DrainStep and Drain require payloads of at least one frame, because the last-frame
    copy would index out of bounds.
- AudioOutput.TardyYetReliableAudioOutputQueue.DrainStep: requires `sampleRate > 0`, and so
  do DrainNext and Drain. Java divides the gap by the rate in `double` at
  TardyYetReliableAudioOutputQueue.java:350-351 without an exception. A zero rate would
  give an infinite or NaN timing error, and a negative rate would invert the staleness
  test. Neither case is modelled.
- AudioOutput.TardyYetReliableAudioOutputQueue.constructor: requires a supported encoding
  and a positive frame size, the only cases in which the Java constructor can complete.
  AudioOutput.Open models the other three cases, where the constructor throws
  LineUnavailableException, NegativeArraySizeException or, for a frame size of zero,
  ArithmeticException at TardyYetReliableAudioOutputQueue.java:140, as no queue.
- AudioOutput.TardyYetReliableAudioOutputQueue.Enqueue: states nothing about contents when
  the frame time duplicates the smallest or largest queued key. That case is the defect
  under Findings, and Put describes it in full.
- Every queue operation requires a consistent queue, so after a duplicate of an end key
  the model follows the broken queue only through the concrete runs
  DuplicateMaximumScenario, DuplicateMaximumLosesLaterKey and DuplicateMinimumScenario,
  and through Flush, which repairs it.
- SortedQueue.LinkedSortedQueue.PutFromTail: promises `Upsert` only when the key is not a
  duplicate at an end. The boundary cases are stated on Put.
- AudioOutput.TardyYetReliableAudioOutputQueue.Drain: states what was written, not the
  device-facing side effects of each pass, which DrainStep states.

## Findings

| source | as written | input that shows it | evidently intended | confidence | as-written member | corrected member |
|---|---|---|---|---|---|---|
| src/main/java/org/gps/air/receiver/Impl/LinkedSortedQueue.java:139-153 | The equal-key branch of insertNode links the new node in place of the old one but never re-aims `head` or `tail`. A duplicate of the only key is dropped. A duplicate of the smallest key leaves `head` on the old node, so the old value stays while the second node's `previous` points at the unreachable new node. A duplicate of the largest key leaves `tail` on a node the chain no longer reaches. Every later put of a larger key, such as the next frame time of the audio stream, then searches from that stale tail and is linked after it, where the drain never finds it. | put(1,10), put(2,20), put(2,21): `tail` is the detached old node holding 20. A following put(3,30) is linked after the detached node, so 3 is lost. put(1,10), put(2,20), put(1,11): the queue still maps 1 to 10. Test lines 34 and 36 of src/test/java/org/gps/air/receiver/test/LinkedSortedQueueTest.java make these calls, but every value there is the same array, so the test cannot notice. | A duplicate replaces the entry and the queue stays consistent, as for an interior duplicate ("Duplicates not allowed"). | not executed | SortedQueue.LinkedSortedQueue.Put, SortedQueue.DuplicateMaximumScenario, SortedQueue.DuplicateMaximumLosesLaterKey, SortedQueue.DuplicateMinimumScenario | SortedQueue.LinkedSortedQueue.PutReplacing, SortedQueue.DuplicateMaximumCorrected |

=== FILE: audio_clock.dfy ===
/**
 * The clock arithmetic of TardyYetReliableAudioOutputQueue. Frame time is the sender's
 * timeline (RTP frame numbers); line time is the number of frames handed to the output
 * line. The two differ by `frameTimeOffset`. All of these quantities are Java `long`s, so
 * every sum and difference wraps modulo 2^64, and the model says so explicitly.
 */
module AudioClock {

  const LONG_MIN: int := -0x8000_0000_0000_0000
  const LONG_MAX: int := 0x7fff_ffff_ffff_ffff
  const LONG_RANGE: int := 0x1_0000_0000_0000_0000

  /** A value of Java's 64-bit two's-complement `long`. */
  type Long = x: int | LONG_MIN <= x <= LONG_MAX

  /** Entries whose timing error exceeds this many seconds flush the whole queue. */
  const DROP_FRAMES_WHEN_OVER_SECONDS: int := 20

  /** The `long` a mathematical integer wraps to: the one congruent to it modulo 2^64. */
  function Wrap(x: int): (r: Long)
    ensures (x - r) % LONG_RANGE == 0
    ensures LONG_MIN <= x <= LONG_MAX ==> r == x
  {
    LONG_MIN + (x - LONG_MIN) % LONG_RANGE
  }

  /** Java `a + b` on longs: the sum modulo 2^64, and the sum itself when it fits. */
  function Add(a: Long, b: Long): (r: Long)
    ensures (a + b - r) % LONG_RANGE == 0
    ensures LONG_MIN <= a + b <= LONG_MAX ==> r == a + b
  {
    Wrap(a + b)
  }

  /** Java `a - b` on longs: the difference modulo 2^64, and the difference itself when it fits. */
  function Sub(a: Long, b: Long): (r: Long)
    ensures (a - b - r) % LONG_RANGE == 0
    ensures LONG_MIN <= a - b <= LONG_MAX ==> r == a - b
  {
    Wrap(a - b)
  }

  /** convertFrameToLineTime: the line time at which a frame time is due. */
  function FrameToLineTime(frameTimeOffset: Long, frameTime: Long): Long {
    Sub(frameTime, frameTimeOffset)
  }

  /** getNextFrameTime / getNowFrameTime: the frame time a line position corresponds to. */
  function LineToFrameTime(frameTimeOffset: Long, lineTime: Long): Long {
    Add(frameTimeOffset, lineTime)
  }

  /** setFrameTime: the offset under which `frameTime` is due at `lineTime`. */
  function OffsetFor(frameTime: Long, lineTime: Long): Long {
    Sub(frameTime, lineTime)
  }

  /** The drain loop's gapFrames: how far the entry's line time lies beyond the frames written. */
  function GapFrames(entryLineTime: Long, framesWritten: Long): (gap: Long)
    ensures LONG_MIN <= entryLineTime - framesWritten <= LONG_MAX ==> gap == entryLineTime - framesWritten
  {
    Sub(entryLineTime, framesWritten)
  }

  /** A byte count the line reports for one write: a non-negative Java `int`. */
  type ByteCount = x: int | 0 <= x <= 0x7fff_ffff

  /**
   * The new value of m_lineFramesWritten after the line accepted `bytesWritten` bytes: it
   * grows by the number of whole frames accepted (an `int` quotient widened to `long`), so
   * it never decreases unless the long overflows.
   */
  function FramesWrittenAfter(framesWritten: Long, bytesWritten: ByteCount, bytesPerFrame: nat): (r: Long)
    requires bytesPerFrame > 0
    ensures framesWritten + bytesWritten / bytesPerFrame <= LONG_MAX ==>
              r == framesWritten + bytesWritten / bytesPerFrame && framesWritten <= r
  {
    var frames := bytesWritten / bytesPerFrame;
    assert 0 <= frames <= bytesWritten by {
      assert frames * bytesPerFrame <= bytesWritten;
    }
    Add(framesWritten, frames)
  }

  /**
   * The staleness rule. The gap is how far the entry's line time lies beyond the frames
   * already written. The entry is stale when that distance, in seconds, exceeds
   * DROP_FRAMES_WHEN_OVER_SECONDS, that is, when the line lags the sender's timeline by
   * more than twenty seconds. Java computes the quotient in `double`; here it is exact.
   * Stated in frames: the gap exceeds twenty seconds' worth of frames.
   */
  predicate IsStale(gapFrames: Long, sampleRate: real): (stale: bool)
    requires sampleRate > 0.0
    ensures stale <==> gapFrames as real > DROP_FRAMES_WHEN_OVER_SECONDS as real * sampleRate
  {
    var q := (gapFrames as real) / sampleRate;
    assert q * sampleRate == gapFrames as real;
    assert q > 20.0 <==> q * sampleRate > 20.0 * sampleRate by {
      if q > 20.0 {
        assert q * sampleRate > 20.0 * sampleRate;
      } else {
        assert q * sampleRate <= 20.0 * sampleRate;
      }
    }
    q > DROP_FRAMES_WHEN_OVER_SECONDS as real
  }

  /**
   * setLineGain's bound: the requested gain, pulled up to the control's minimum or down to
   * its maximum when it lies outside them.
   */
  function ClampGain(gain: real, minimum: real, maximum: real): (r: real)
    ensures minimum <= maximum ==> minimum <= r <= maximum
    ensures minimum <= gain <= maximum ==> r == gain
    ensures gain < minimum ==> r == minimum
    ensures minimum <= gain && maximum < gain ==> r == maximum
  {
    if gain < minimum then minimum
    else if gain > maximum then maximum
    else gain
  }

  // ---------------------------------------------------------------------------
  // Wrap-around facts

  /** Adding a multiple of 2^64 does not change the wrapped value. */
  lemma WrapShift(x: int, k: int)
    ensures Wrap(x + k * LONG_RANGE) == Wrap(x)
  {
    var a, b := x - LONG_MIN, x + k * LONG_RANGE - LONG_MIN;
    assert b == a + k * LONG_RANGE;
    assert b % LONG_RANGE == a % LONG_RANGE by {
      assert a == (a / LONG_RANGE) * LONG_RANGE + a % LONG_RANGE;
      assert b == (a / LONG_RANGE + k) * LONG_RANGE + a % LONG_RANGE;
      DivModUnique(b, a / LONG_RANGE + k, a % LONG_RANGE);
    }
  }

  /** Euclidean division by 2^64 has a unique quotient and remainder. */
  lemma DivModUnique(b: int, q: int, m: int)
    requires 0 <= m < LONG_RANGE && b == q * LONG_RANGE + m
    ensures b % LONG_RANGE == m
  {
    var q', m' := b / LONG_RANGE, b % LONG_RANGE;
    assert b == q' * LONG_RANGE + m';
    assert (q - q') * LONG_RANGE == m' - m;
  }

  /** Wrapping forgets everything but the value modulo 2^64, even inside a further sum. */
  lemma WrapInner(x: int, y: int)
    ensures Wrap(Wrap(x) + y) == Wrap(x + y)
  {
    var k := (x - LONG_MIN) / LONG_RANGE;
    assert Wrap(x) == x - k * LONG_RANGE;
    assert Wrap(x) + y == x + y + (-k) * LONG_RANGE;
    WrapShift(x + y, -k);
  }

  // ---------------------------------------------------------------------------
  // The clock's consistency, overflow included

  /** Converting a line time to frame time and back gives the line time again. */
  lemma LineFrameRoundTrip(frameTimeOffset: Long, lineTime: Long)
    ensures FrameToLineTime(frameTimeOffset, LineToFrameTime(frameTimeOffset, lineTime)) == lineTime
  {
    WrapInner(frameTimeOffset + lineTime, -(frameTimeOffset as int));
  }

  /** Converting a frame time to line time and back gives the frame time again. */
  lemma FrameLineRoundTrip(frameTimeOffset: Long, frameTime: Long)
    ensures LineToFrameTime(frameTimeOffset, FrameToLineTime(frameTimeOffset, frameTime)) == frameTime
  {
    WrapInner(frameTime - frameTimeOffset, frameTimeOffset);
  }

  /** After setFrameTime(frameTime, lineTime), `frameTime` is due exactly at `lineTime`. */
  lemma OffsetForAligns(frameTime: Long, lineTime: Long)
    ensures FrameToLineTime(OffsetFor(frameTime, lineTime), frameTime) == lineTime
  {
    WrapInner(frameTime - lineTime, 0);
    assert Wrap(frameTime - Wrap(frameTime - lineTime)) == Wrap(lineTime) by {
      WrapInner(-(frameTime - lineTime), frameTime);
      var k := (frameTime - lineTime - LONG_MIN) / LONG_RANGE;
      assert Wrap(frameTime - lineTime) == frameTime - lineTime - k * LONG_RANGE;
      assert frameTime - Wrap(frameTime - lineTime) == lineTime + k * LONG_RANGE;
      WrapShift(lineTime, k);
    }
  }

  /**
   * The gap is a frame distance: the entry's frame time lies exactly `gapFrames` frames
   * after the next frame time (getNextFrameTime), whatever the offset.
   */
  lemma GapIsFrameDistance(frameTimeOffset: Long, framesWritten: Long, frameTime: Long)
    ensures Add(LineToFrameTime(frameTimeOffset, framesWritten),
                GapFrames(FrameToLineTime(frameTimeOffset, frameTime), framesWritten)) == frameTime
  {
    WrapChain(frameTimeOffset, framesWritten, frameTime);
  }

  /** The integer identity behind GapIsFrameDistance: ((t - o) - w) + (o + w) == t, wrapped at each step. */
  lemma WrapChain(o: int, w: int, t: int)
    ensures Wrap(Wrap(o + w) + Wrap(Wrap(t - o) - w)) == Wrap(t)
  {
    var line := Wrap(t - o);
    var gap := Wrap(line - w);
    WrapInnerSum(o + w, gap, o + w + gap);
    WrapInnerSum(line - w, o + w, line + o);
    WrapInnerSum(t - o, o, t);
  }

  /** WrapInner with the sum named, so that chained uses meet on the same terms. */
  lemma WrapInnerSum(x: int, y: int, z: int)
    requires x + y == z
    ensures Wrap(Wrap(x) + y) == Wrap(z)
  {
    WrapInner(x, y);
  }

  // ---------------------------------------------------------------------------
  // Staleness

  /** An entry already due or overdue (a gap of at most zero frames) never flushes the queue. */
  lemma DueNeverStale(gapFrames: Long, sampleRate: real)
    requires sampleRate > 0.0 && gapFrames <= 0
    ensures !IsStale(gapFrames, sampleRate)
  {
  }

  /** An entry due further beyond the frames written (a larger gap) is stale if a nearer one is. */
  lemma StaleMonotone(gap1: Long, gap2: Long, sampleRate: real)
    requires sampleRate > 0.0 && gap1 <= gap2 && IsStale(gap1, sampleRate)
    ensures IsStale(gap2, sampleRate)
  {
  }
}

=== FILE: audio_output_queue.dfy ===
/**
 * TardyYetReliableAudioOutputQueue: a player that keeps incoming audio packets in a
 * LinkedSortedQueue ordered by frame time and drains it, smallest frame time first, into
 * an output line.
 *
 * The output line is not modelled as a device. The byte count it accepts on each write
 * and its current playback position are parameters. Its MASTER_GAIN control is three
 * constants (whether it exists, its minimum, its maximum) and a field for its current value.
 */
module AudioOutput {
  import opened Entries
  import opened SortedQueue
  import opened AudioClock
  import opened Pcm

  datatype Encoding = PcmSigned | PcmUnsigned | OtherEncoding

  /** The parts of a Java Sound AudioFormat the queue looks at. */
  datatype AudioFormat = AudioFormat(
    encoding: Encoding,
    sampleRate: real,
    sampleSizeInBits: int,
    channels: int,
    bigEndian: bool)

  /**
   * The format the line is opened with, and whether samples need converting. Lines are
   * always signed: an unsigned stream gets a signed line with otherwise equal parameters
   * and is converted. Any other encoding is unsupported (LineUnavailableException).
   */
  function LineFormat(f: AudioFormat): (r: Option<(AudioFormat, bool)>)
    ensures r.None? <==> f.encoding == OtherEncoding
    ensures r.Some? ==> r.value.0.encoding == PcmSigned && r.value.0.(encoding := f.encoding) == f
    ensures r.Some? ==> (r.value.1 <==> f.encoding == PcmUnsigned)
  {
    match f.encoding
    case PcmSigned => Some((f, false))
    case PcmUnsigned => Some((f.(encoding := PcmSigned), true))
    case OtherEncoding => None
  }

  /**
   * Java's `/` on ints, which truncates toward zero: the remainder takes the dividend's
   * sign and is smaller than the divisor in magnitude.
   */
  function JavaDiv(a: int, b: int): (q: int)
    requires b > 0
    ensures a >= 0 ==> 0 <= a - q * b < b
    ensures a < 0 ==> -b < a - q * b <= 0
  {
    if a >= 0 then a / b else -((-a) / b)
  }

  /**
   * m_bytesPerFrame: the bits of one frame (bits per sample times channels) as whole bytes,
   * rounded toward zero.
   */
  function BytesPerFrame(f: AudioFormat): (n: int)
    ensures f.channels * f.sampleSizeInBits >= 0 ==> 0 <= 8 * n <= f.channels * f.sampleSizeInBits < 8 * n + 8
    ensures f.channels * f.sampleSizeInBits < 0 ==> 8 * n - 8 < f.channels * f.sampleSizeInBits <= 8 * n <= 0
  {
    JavaDiv(f.channels * f.sampleSizeInBits, 8)
  }

  type Payload = array<JByte>

  class TardyYetReliableAudioOutputQueue {
    /** The line is signed but the stream is unsigned. */
    const convertUnsignedToSigned: bool
    const bytesPerFrame: int
    const sampleRate: real
    /** The last frame written to the line. */
    const lineLastFrame: Payload
    /** The packets waiting to be played, keyed by frame time. */
    const internalQueue: LinkedSortedQueue<Payload>
    /** The line's MASTER_GAIN control: whether there is one, and its bounds. */
    const gainControlSupported: bool
    const gainMinimum: real
    const gainMaximum: real
    /** The MASTER_GAIN control's current value. */
    var lineGain: real
    /** Set by close; nothing sets it back. */
    var closing: bool
    /** Frames appended to the line so far; getNextLineTime returns it. */
    var lineFramesWritten: Long
    /** The frame time corresponding to line time zero. */
    var frameTimeOffset: Long
    var requestedGain: real

    /**
     * The queue is a valid sorted queue, its keys are Java longs, a frame has at least one
     * byte, the last frame has one frame's bytes, and no queued payload is the last-frame
     * buffer itself.
     */
    ghost predicate Valid()
      reads internalQueue, internalQueue.nodes
    {
      && internalQueue.Valid()
      && bytesPerFrame > 0
      && lineLastFrame.Length == bytesPerFrame
      && (forall j :: 0 <= j < |internalQueue.Contents()| ==>
            LONG_MIN <= internalQueue.Contents()[j].key <= LONG_MAX
            && internalQueue.Contents()[j].value != lineLastFrame)
    }

    /** The payload arrays currently queued. */
    ghost function Payloads(): set<Payload>
      reads internalQueue
    {
      set j | 0 <= j < |internalQueue.Contents()| :: internalQueue.Contents()[j].value
    }

    /** The constructor for a supported encoding. */
    constructor (format: AudioFormat, gainSupported: bool, gainMin: real, gainMax: real, initialLineGain: real)
      requires format.encoding != OtherEncoding && BytesPerFrame(format) > 0
      ensures Valid() && fresh(internalQueue) && fresh(lineLastFrame)
      ensures internalQueue.Contents() == [] && lineLastFrame[..] == InitialFrame(bytesPerFrame)
      ensures convertUnsignedToSigned <==> format.encoding == PcmUnsigned
      ensures bytesPerFrame == BytesPerFrame(format) && sampleRate == format.sampleRate
      ensures !closing && lineFramesWritten == 0 && frameTimeOffset == 0 && requestedGain == 0.0
      ensures gainControlSupported == gainSupported && gainMinimum == gainMin && gainMaximum == gainMax
      ensures lineGain == initialLineGain
    {
      var (lf, convert) := LineFormat(format).value;
      var bpf := BytesPerFrame(lf);
      var frame := NewLastFrame(bpf);
      var queue := new LinkedSortedQueue<Payload>();
      convertUnsignedToSigned := convert;
      bytesPerFrame := bpf;
      sampleRate := lf.sampleRate;
      lineLastFrame := frame;
      internalQueue := queue;
      gainControlSupported, gainMinimum, gainMaximum := gainSupported, gainMin, gainMax;
      lineGain := initialLineGain;
      closing := false;
      lineFramesWritten, frameTimeOffset := 0, 0;
      requestedGain := 0.0;
    }

    // -------------------------------------------------------------------------
    // The clock

    /** convertFrameToLineTime. */
    function ConvertFrameToLineTime(frameTime: Long): (lineTime: Long)
      reads this
      ensures LineToFrameTime(frameTimeOffset, lineTime) == frameTime
    {
      FrameLineRoundTrip(frameTimeOffset, frameTime);
      FrameToLineTime(frameTimeOffset, frameTime)
    }

    /** getNextFrameTime: the frame time due at the end of what has been written to the line. */
    function GetNextFrameTime(): (frameTime: Long)
      reads this
      ensures FrameToLineTime(frameTimeOffset, frameTime) == lineFramesWritten
    {
      LineFrameRoundTrip(frameTimeOffset, lineFramesWritten);
      LineToFrameTime(frameTimeOffset, lineFramesWritten)
    }

    /** getNowFrameTime: the frame time playing now, given the line's playback position. */
    function GetNowFrameTime(linePosition: Long): (frameTime: Long)
      reads this
      ensures FrameToLineTime(frameTimeOffset, frameTime) == linePosition
    {
      LineFrameRoundTrip(frameTimeOffset, linePosition);
      LineToFrameTime(frameTimeOffset, linePosition)
    }

    /** The next frame time, converted back, is the next line time (getNextLineTime). */
    lemma NextTimesAgree()
      ensures ConvertFrameToLineTime(GetNextFrameTime()) == lineFramesWritten
    {
    }

    /**
     * setFrameTime, with the line time computed from the seconds time passed in: the
     * offset is re-aimed so that `frameTime` is due exactly at `lineTime`.
     */
    method SetFrameTime(frameTime: Long, lineTime: Long)
      modifies this`frameTimeOffset
      ensures frameTimeOffset == OffsetFor(frameTime, lineTime)
      ensures ConvertFrameToLineTime(frameTime) == lineTime
    {
      frameTimeOffset := OffsetFor(frameTime, lineTime);
      OffsetForAligns(frameTime, lineTime);
    }

    // -------------------------------------------------------------------------
    // Gain, closing and flushing

    /** getLineGain: the control's value, or 0 when the line has no gain control. */
    function CurrentLineGain(): (gain: real)
      reads this
      ensures gainControlSupported ==> gain == lineGain
      ensures !gainControlSupported ==> gain == 0.0
    {
      if gainControlSupported then lineGain else 0.0
    }

    /** setLineGain: the control is set to the gain bounded by its minimum and maximum. */
    method SetLineGain(gain: real)
      modifies this`lineGain
      ensures gainControlSupported ==> lineGain == ClampGain(gain, gainMinimum, gainMaximum)
      ensures !gainControlSupported ==> lineGain == old(lineGain)
    {
      if gainControlSupported {
        lineGain := ClampGain(gain, gainMinimum, gainMaximum);
      }
    }

    method SetGain(gain: real)
      modifies this`requestedGain
      ensures requestedGain == gain
    {
      requestedGain := gain;
    }

    method GetGain() returns (gain: real)
      ensures gain == requestedGain
    {
      gain := requestedGain;
    }

    /** close: `closing` becomes true; no operation sets it back to false. */
    method Close()
      modifies this`closing
      ensures closing
    {
      closing := true;
    }

    /** flush: every queued packet is discarded. */
    method Flush()
      requires bytesPerFrame > 0 && lineLastFrame.Length == bytesPerFrame
      modifies internalQueue
      ensures Valid() && internalQueue.Contents() == []
    {
      internalQueue.Clear();
    }

    /**
     * enqueue: the packet is put into the queue under its frame time, searching from the
     * tail. A frame time already queued at either end leaves the queue inconsistent, as
     * LinkedSortedQueue.put does.
     */
    method Enqueue(frameTime: Long, frames: Payload)
      requires Valid() && frames != lineLastFrame
      modifies internalQueue, internalQueue.nodes
      ensures |internalQueue.nodes| ==
                if frameTime in KeySet(old(internalQueue.Contents())) then |old(internalQueue.nodes)|
                else |old(internalQueue.nodes)| + 1
      ensures frameTime !in KeySet(old(internalQueue.Contents())) || !IsBoundaryKey(old(internalQueue.Contents()), frameTime) ==>
                Valid() && internalQueue.Contents() == Upsert(old(internalQueue.Contents()), frameTime, frames)
    {
      ghost var s := internalQueue.Contents();
      UpsertElements(s, frameTime, frames);
      internalQueue.PutFromTail(frameTime, frames);
      forall j | 0 <= j < |internalQueue.Contents()| && internalQueue.Contents() == Upsert(s, frameTime, frames)
        ensures LONG_MIN <= internalQueue.Contents()[j].key <= LONG_MAX
        ensures internalQueue.Contents()[j].value != lineLastFrame
      {
        assert internalQueue.Contents()[j] in Upsert(s, frameTime, frames);
      }
    }

    // -------------------------------------------------------------------------
    // Draining

    /**
     * One pass of the drain loop: bring the line gain up to date, take the packet with the
     * smallest frame time, convert it if needed, measure how far its line time lies beyond
     * the frames already written, write it (the line accepts `bytesWritten` bytes), advance
     * the frames written, remember its last frame, and discard the whole queue if the packet
     * was due more than twenty seconds beyond what had been written.
     */
    method DrainStep(bytesWritten: ByteCount) returns (entry: Entry<Payload>, gapFrames: Long, stale: bool)
      requires Valid() && internalQueue.Contents() != [] && sampleRate > 0.0
      requires internalQueue.Contents()[0].value.Length >= bytesPerFrame
      modifies this`lineGain, this`lineFramesWritten, internalQueue, internalQueue.nodes
      modifies lineLastFrame, internalQueue.Contents()[0].value
      ensures Valid()
      ensures entry == old(internalQueue.Contents()[0])
      ensures internalQueue.Contents() == if stale then [] else old(internalQueue.Contents())[1..]
      ensures internalQueue.nodes == if stale then [] else old(internalQueue.nodes)[1..]
      ensures entry.value[..] == if convertUnsignedToSigned then Converted(old(entry.value[..])) else old(entry.value[..])
      ensures gapFrames == GapFrames(FrameToLineTime(frameTimeOffset, entry.key), old(lineFramesWritten))
      ensures lineFramesWritten == FramesWrittenAfter(old(lineFramesWritten), bytesWritten, bytesPerFrame)
      ensures lineLastFrame[..] == entry.value[entry.value.Length - bytesPerFrame..]
      ensures stale <==> IsStale(gapFrames, sampleRate)
      ensures lineGain == if gainControlSupported && old(lineGain) != requestedGain
                          then ClampGain(requestedGain, gainMinimum, gainMaximum) else old(lineGain)
    {
      ApplyRequestedGain();
      entry, gapFrames := TakeAndWrite(bytesWritten);
      stale := IsStale(gapFrames, sampleRate);
      if stale {
        internalQueue.Clear();
      }
    }

    /** The start of a drain pass: a requested gain that differs from the line's is applied. */
    method ApplyRequestedGain()
      modifies this`lineGain
      ensures lineGain == if gainControlSupported && old(lineGain) != requestedGain
                          then ClampGain(requestedGain, gainMinimum, gainMaximum) else old(lineGain)
      // a request within the control's bounds is then what getLineGain reads, so the next
      // pass of the drain loop does not apply it again
      ensures gainControlSupported && gainMinimum <= requestedGain <= gainMaximum ==>
                CurrentLineGain() == requestedGain
    {
      if CurrentLineGain() != requestedGain {
        SetLineGain(requestedGain);
      }
    }

    /** The first entry is taken off the queue and written to the line. */
    method TakeAndWrite(bytesWritten: ByteCount) returns (entry: Entry<Payload>, gapFrames: Long)
      requires Valid() && internalQueue.Contents() != []
      requires internalQueue.Contents()[0].value.Length >= bytesPerFrame
      modifies this`lineFramesWritten, internalQueue, internalQueue.nodes
      modifies lineLastFrame, internalQueue.Contents()[0].value
      ensures Valid()
      ensures entry == old(internalQueue.Contents()[0])
      ensures internalQueue.Contents() == old(internalQueue.Contents())[1..]
      ensures internalQueue.nodes == old(internalQueue.nodes)[1..]
      ensures entry.value[..] == if convertUnsignedToSigned then Converted(old(entry.value[..])) else old(entry.value[..])
      ensures gapFrames == GapFrames(FrameToLineTime(frameTimeOffset, entry.key), old(lineFramesWritten))
      ensures lineFramesWritten == FramesWrittenAfter(old(lineFramesWritten), bytesWritten, bytesPerFrame)
      ensures lineLastFrame[..] == entry.value[entry.value.Length - bytesPerFrame..]
    {
      var first := internalQueue.FirstEntryRemove();
      entry := first.value;
      gapFrames := WritePacket(entry.key, entry.value, bytesWritten);
    }

    /**
     * The write half of a drain pass for a packet taken from the queue: convert the
     * samples if needed, measure the gap before writing, advance the frames written by the
     * whole frames the line accepted, and keep the packet's last frame.
     */
    method WritePacket(frameTime: Long, samples: Payload, bytesWritten: ByteCount) returns (gapFrames: Long)
      requires bytesPerFrame > 0 && lineLastFrame.Length == bytesPerFrame
      requires samples != lineLastFrame && samples.Length >= bytesPerFrame
      modifies this`lineFramesWritten, lineLastFrame, samples
      ensures samples[..] == if convertUnsignedToSigned then Converted(old(samples[..])) else old(samples[..])
      ensures gapFrames == GapFrames(FrameToLineTime(frameTimeOffset, frameTime), old(lineFramesWritten))
      ensures lineFramesWritten == FramesWrittenAfter(old(lineFramesWritten), bytesWritten, bytesPerFrame)
      ensures lineLastFrame[..] == samples[samples.Length - bytesPerFrame..]
    {
      var entryLineTime := ConvertFrameToLineTime(frameTime);
      if convertUnsignedToSigned {
        ConvertUnsignedToSigned(samples);
      }
      gapFrames := GapFrames(entryLineTime, lineFramesWritten);
      lineFramesWritten := FramesWrittenAfter(lineFramesWritten, bytesWritten, bytesPerFrame);
      CopyLastFrame(samples, lineLastFrame);
    }

    /**
     * One pass of the drain loop as the loop sees it: the queue loses its first entry, or
     * everything when that entry was stale, and stays valid.
     */
    method DrainNext(bytesWritten: ByteCount) returns (entry: Entry<Payload>, empty: bool)
      requires Valid() && internalQueue.Contents() != [] && sampleRate > 0.0
      requires internalQueue.Contents()[0].value.Length >= bytesPerFrame
      modifies this`lineGain, this`lineFramesWritten, internalQueue, internalQueue.nodes
      modifies lineLastFrame, internalQueue.Contents()[0].value
      ensures Valid() && entry == old(internalQueue.Contents()[0])
      ensures empty <==> internalQueue.Contents() == []
      ensures !empty ==> internalQueue.Contents() == old(internalQueue.Contents())[1..]
                         && internalQueue.nodes == old(internalQueue.nodes)[1..]
    {
      var gapFrames, stale;
      entry, gapFrames, stale := DrainStep(bytesWritten);
      empty := internalQueue.IsEmpty();
    }

    /**
     * The drain loop: packets go to the line one by one, smallest frame time first, until
     * the queue is empty. `accepted[i]` is what the line accepts of the i-th write. What was
     * written is a prefix of the queue as it stood, in strictly ascending frame time; the
     * rest, if any, was discarded by the staleness rule.
     */
    method Drain(accepted: seq<ByteCount>) returns (written: seq<Entry<Payload>>)
      requires Valid() && sampleRate > 0.0
      requires |accepted| >= |internalQueue.Contents()|
      requires forall j :: 0 <= j < |internalQueue.Contents()| ==>
                 internalQueue.Contents()[j].value.Length >= bytesPerFrame
      modifies this`lineGain, this`lineFramesWritten, internalQueue, internalQueue.nodes
      modifies lineLastFrame, Payloads()
      ensures Valid() && internalQueue.Contents() == []
      ensures written <= old(internalQueue.Contents())
      ensures written == [] <==> old(internalQueue.Contents()) == []
      ensures Ascending(written)
    {
      ghost var s := internalQueue.Contents();
      ghost var ns := internalQueue.nodes;
      ghost var payloads := Payloads();
      written := [];
      var k := 0;
      var empty := internalQueue.IsEmpty();
      while !empty
        invariant Valid() && k <= |s| && written == s[..k]
        invariant empty <==> internalQueue.Contents() == []
        invariant !empty ==> internalQueue.Contents() == s[k..] && internalQueue.nodes == ns[k..]
        invariant k == 0 ==> internalQueue.Contents() == s
        decreases |s| - k, !empty
      {
        assert s[k] == internalQueue.Contents()[0] && s[k].value in payloads;
        var entry;
        entry, empty := DrainNext(accepted[k]);
        assert s[..k + 1] == s[..k] + [entry];
        written, k := written + [entry], k + 1;
      }
      AscendingSlice(s, 0, k);
      assert s[0..k] == written;
    }
  }

  /**
   * Construction: an unsupported encoding (LineUnavailableException), a negative frame
   * size (NegativeArraySizeException when the last-frame buffer is allocated) or a frame
   * size of zero (ArithmeticException when the buffer size is logged in frames) gives no
   * queue; otherwise a fresh, empty, valid queue.
   */
  method Open(format: AudioFormat, gainSupported: bool, gainMin: real, gainMax: real, initialLineGain: real)
    returns (q: Option<TardyYetReliableAudioOutputQueue>)
    ensures q.None? <==> format.encoding == OtherEncoding || BytesPerFrame(format) <= 0
    ensures q.Some? ==> fresh(q.value) && q.value.Valid() && q.value.internalQueue.Contents() == []
  {
    if format.encoding == OtherEncoding || BytesPerFrame(format) <= 0 {
      return None;
    }
    var queue := new TardyYetReliableAudioOutputQueue(format, gainSupported, gainMin, gainMax, initialLineGain);
    q := Some(queue);
  }
}

=== FILE: entries.dfy ===
/**
 * The abstract view of a LinkedSortedQueue: the sequence of key/value entries met when
 * following `next` from `head`, and the specification functions its operations are
 * proved against (sorted insert-or-replace, remove by key, the TreeMap snapshot).
 */
module Entries {

  datatype Option<T> = None | Some(value: T)

  /** A key/value pair, as the queue's remove operations hand it out. */
  datatype Entry<V> = Entry(key: int, value: V)

  /** Keys strictly ascending from first to last (so no key occurs twice). */
  ghost predicate Ascending<V>(s: seq<Entry<V>>) {
    forall i, j :: 0 <= i < j < |s| ==> s[i].key < s[j].key
  }

  ghost function KeySet<V>(s: seq<Entry<V>>): set<int> {
    set i | 0 <= i < |s| :: s[i].key
  }

  /** The key is the first or the last one: the two ends of the chain. */
  ghost predicate IsBoundaryKey<V>(s: seq<Entry<V>>, k: int) {
    |s| > 0 && (s[0].key == k || s[|s| - 1].key == k)
  }

  /**
   * Insert-or-replace into a sorted sequence: a new key is spliced in at its ordered
   * position, an existing key has its entry replaced in place.
   */
  ghost function Upsert<V>(s: seq<Entry<V>>, k: int, v: V): seq<Entry<V>> {
    if s == [] || k < s[0].key then [Entry(k, v)] + s
    else if k == s[0].key then [Entry(k, v)] + s[1..]
    else [s[0]] + Upsert(s[1..], k, v)
  }

  /** The sequence without the (first) entry whose key is `k`. */
  ghost function RemoveKey<V>(s: seq<Entry<V>>, k: int): seq<Entry<V>> {
    if s == [] then []
    else if s[0].key == k then s[1..]
    else [s[0]] + RemoveKey(s[1..], k)
  }

  /** The value stored under `k`, if any. */
  ghost function Lookup<V>(s: seq<Entry<V>>, k: int): Option<V> {
    if s == [] then None
    else if s[0].key == k then Some(s[0].value)
    else Lookup(s[1..], k)
  }

  /** The key-to-value map the entries describe (for a key met twice, the first entry wins). */
  ghost function ToMap<V>(s: seq<Entry<V>>): map<int, V> {
    if s == [] then map[] else ToMap(s[1..])[s[0].key := s[0].value]
  }

  // ---------------------------------------------------------------------------
  // Insert-or-replace

  /** Splicing a fresh key in between smaller and larger keys is exactly what Upsert does. */
  lemma {:induction false} UpsertAt<V>(s: seq<Entry<V>>, i: nat, k: int, v: V)
    requires i <= |s|
    requires forall j :: 0 <= j < i ==> s[j].key < k
    requires forall j :: i <= j < |s| ==> k < s[j].key
    ensures Upsert(s, k, v) == s[..i] + [Entry(k, v)] + s[i..]
  {
    if i > 0 {
      UpsertAt(s[1..], i - 1, k, v);
      assert s[1..][..i - 1] == s[1..i];
      assert s[1..][i - 1..] == s[i..];
      assert s[..i] == [s[0]] + s[1..i];
    }
  }

  /** Upserting a key the sorted sequence holds replaces that entry and nothing else. */
  lemma {:induction false} UpsertReplaceAt<V>(s: seq<Entry<V>>, i: nat, v: V)
    requires Ascending(s) && i < |s|
    ensures Upsert(s, s[i].key, v) == s[i := Entry(s[i].key, v)]
  {
    if i > 0 {
      assert s[0].key < s[i].key;
      UpsertReplaceAt(s[1..], i - 1, v);
      assert s[1..][i - 1].key == s[i].key;
      assert s[i := Entry(s[i].key, v)] == [s[0]] + s[1..][i - 1 := Entry(s[i].key, v)];
    }
  }

  /** Upsert keeps a sorted sequence sorted, and `k` is then found with value `v`. */
  lemma {:induction false} UpsertAscending<V>(s: seq<Entry<V>>, k: int, v: V)
    requires Ascending(s)
    ensures Ascending(Upsert(s, k, v))
    ensures Lookup(Upsert(s, k, v), k) == Some(v)
  {
    if s == [] || k < s[0].key {
      forall j | 0 <= j < |s| ensures k < s[j].key {
        if j > 0 { assert s[0].key < s[j].key; }
      }
      AscendingCons(Entry(k, v), s);
    } else if k == s[0].key {
      AscendingTail(s);
      AscendingCons(Entry(k, v), s[1..]);
    } else {
      var t := Upsert(s[1..], k, v);
      AscendingTail(s);
      UpsertAscending(s[1..], k, v);
      UpsertBounded(s[1..], k, v, s[0].key);
      AscendingCons(s[0], t);
      assert ([s[0]] + t)[1..] == t;
    }
  }

  /** Upsert of a key above a bound into keys above that bound stays above it. */
  lemma {:induction false} UpsertBounded<V>(s: seq<Entry<V>>, k: int, v: V, b: int)
    requires forall j :: 0 <= j < |s| ==> b < s[j].key
    requires b < k
    ensures forall j :: 0 <= j < |Upsert(s, k, v)| ==> b < Upsert(s, k, v)[j].key
  {
    if s != [] && k > s[0].key {
      UpsertBounded(s[1..], k, v, b);
    }
  }

  /** After Upsert every old key is kept and `k` is present; the length grows by one exactly when `k` was absent. */
  lemma {:induction false} UpsertKeys<V>(s: seq<Entry<V>>, k: int, v: V)
    requires Ascending(s)
    ensures KeySet(Upsert(s, k, v)) == KeySet(s) + {k}
    ensures |Upsert(s, k, v)| == if k in KeySet(s) then |s| else |s| + 1
  {
    assert s != [] ==> s == [s[0]] + s[1..];
    if s == [] || k < s[0].key {
      KeySetCons(Entry(k, v), s);
      forall j | 0 < j < |s| ensures k < s[j].key {
        assert s[0].key < s[j].key;
      }
      assert k !in KeySet(s);
    } else if k == s[0].key {
      KeySetCons(s[0], s[1..]);
      KeySetCons(Entry(k, v), s[1..]);
    } else {
      UpsertKeys(s[1..], k, v);
      KeySetCons(s[0], s[1..]);
      KeySetCons(s[0], Upsert(s[1..], k, v));
    }
  }

  /** Every entry after Upsert is an old entry or the new one. */
  lemma {:induction false} UpsertElements<V>(s: seq<Entry<V>>, k: int, v: V)
    ensures forall e :: e in Upsert(s, k, v) ==> e in s || e == Entry(k, v)
  {
    if s != [] && k > s[0].key {
      UpsertElements(s[1..], k, v);
      assert forall e :: e in s[1..] ==> e in s;
    } else if s != [] && k == s[0].key {
      assert forall e :: e in s[1..] ==> e in s;
    }
  }

  /** The map view of Upsert is a map update: the snapshot reflects the latest value for `k`. */
  lemma {:induction false} UpsertMap<V>(s: seq<Entry<V>>, k: int, v: V)
    ensures ToMap(Upsert(s, k, v)) == ToMap(s)[k := v]
  {
    if s == [] || k < s[0].key {
      assert ([Entry(k, v)] + s)[1..] == s;
    } else if k == s[0].key {
      assert ([Entry(k, v)] + s[1..])[1..] == s[1..];
      assert ToMap(s) == ToMap(s[1..])[k := s[0].value];
    } else {
      UpsertMap(s[1..], k, v);
      assert ([s[0]] + Upsert(s[1..], k, v))[1..] == Upsert(s[1..], k, v);
      assert ToMap(s[1..])[k := v][s[0].key := s[0].value]
          == ToMap(s[1..])[s[0].key := s[0].value][k := v];
    }
  }

  // ---------------------------------------------------------------------------
  // Remove by key and lookup

  /** In a sorted sequence, removing the key at index `i` cuts out exactly that entry, and Lookup finds it. */
  lemma {:induction false} RemoveAt<V>(s: seq<Entry<V>>, i: nat)
    requires Ascending(s) && i < |s|
    ensures RemoveKey(s, s[i].key) == s[..i] + s[i + 1..]
    ensures Lookup(s, s[i].key) == Some(s[i].value)
  {
    if i > 0 {
      assert s[0].key < s[i].key;
      RemoveAt(s[1..], i - 1);
      assert s[1..][i - 1] == s[i];
      assert s[1..][..i - 1] == s[1..i];
      assert s[1..][i..] == s[i + 1..];
      assert s[..i] == [s[0]] + s[1..i];
    }
  }

  /** A key the sequence does not hold is neither found nor removed. */
  lemma {:induction false} RemoveAbsent<V>(s: seq<Entry<V>>, k: int)
    requires k !in KeySet(s)
    ensures RemoveKey(s, k) == s
    ensures Lookup(s, k) == None
  {
    if s != [] {
      assert s[0].key in KeySet(s);
      KeySetCons(s[0], s[1..]);
      assert s == [s[0]] + s[1..];
      RemoveAbsent(s[1..], k);
    }
  }

  /**
   * Remove undoes insert-or-replace: removing `k` after upserting it leaves what removing
   * `k` from the original leaves (the original itself when `k` was absent).
   */
  lemma {:induction false} RemoveUndoesUpsert<V>(s: seq<Entry<V>>, k: int, v: V)
    requires Ascending(s)
    ensures RemoveKey(Upsert(s, k, v), k) == RemoveKey(s, k)
  {
    if s == [] {
    } else if k < s[0].key {
      forall j | 0 <= j < |s| ensures s[j].key != k {
        if j > 0 { assert s[0].key < s[j].key; }
      }
      RemoveAbsent(s, k);
    } else if k != s[0].key {
      AscendingTail(s);
      RemoveUndoesUpsert(s[1..], k, v);
      assert ([s[0]] + Upsert(s[1..], k, v))[1..] == Upsert(s[1..], k, v);
    }
  }

  /** Cutting one entry out of a sorted sequence keeps it sorted and drops exactly its key. */
  lemma CutProperties<V>(s: seq<Entry<V>>, i: nat)
    requires Ascending(s) && i < |s|
    ensures Ascending(s[..i] + s[i + 1..])
    ensures KeySet(s[..i] + s[i + 1..]) == KeySet(s) - {s[i].key}
  {
    var r := s[..i] + s[i + 1..];
    assert forall j :: 0 <= j < |r| ==> r[j] == if j < i then s[j] else s[j + 1];
    forall x | x in KeySet(s) - {s[i].key} ensures x in KeySet(r) {
      var j :| 0 <= j < |s| && s[j].key == x;
      assert r[if j < i then j else j - 1].key == x;
    }
  }

  /** The map view of removal is map subtraction. */
  lemma {:induction false} RemoveMap<V>(s: seq<Entry<V>>, k: int)
    requires Ascending(s)
    ensures ToMap(RemoveKey(s, k)) == ToMap(s) - {k}
  {
    if s != [] {
      AscendingTail(s);
      if s[0].key == k {
        ToMapKeys(s[1..]);
        forall j | 0 <= j < |s[1..]| ensures s[1..][j].key != k {
          assert s[0].key < s[j + 1].key;
        }
        assert ToMap(s) - {k} == ToMap(s[1..]);
      } else {
        RemoveMap(s[1..], k);
        assert ([s[0]] + RemoveKey(s[1..], k))[1..] == RemoveKey(s[1..], k);
        assert (ToMap(s[1..]) - {k})[s[0].key := s[0].value] == ToMap(s[1..])[s[0].key := s[0].value] - {k};
      }
    }
  }

  // ---------------------------------------------------------------------------
  // The map view

  /** The map's keys are the sequence's keys. */
  lemma {:induction false} ToMapKeys<V>(s: seq<Entry<V>>)
    ensures ToMap(s).Keys == KeySet(s)
  {
    if s != [] {
      ToMapKeys(s[1..]);
      KeySetCons(s[0], s[1..]);
      assert s == [s[0]] + s[1..];
    }
  }

  /** In a sorted sequence every entry is what the map holds under its key. */
  lemma {:induction false} ToMapValues<V>(s: seq<Entry<V>>)
    requires Ascending(s)
    ensures forall j :: 0 <= j < |s| ==> s[j].key in ToMap(s) && ToMap(s)[s[j].key] == s[j].value
  {
    if s != [] {
      ToMapValues(s[1..]);
      forall j | 0 < j < |s| ensures s[j].key != s[0].key && s[j] == s[1..][j - 1] {
      }
    }
  }

  /** Adding one entry with a new key at the end adds that key to the map. */
  lemma {:induction false} ToMapSnoc<V>(p: seq<Entry<V>>, e: Entry<V>)
    requires e.key !in KeySet(p)
    ensures ToMap(p + [e]) == ToMap(p)[e.key := e.value]
  {
    if p == [] {
      assert ([] + [e])[1..] == [];
    } else {
      assert (p + [e])[1..] == p[1..] + [e];
      assert p[0].key in KeySet(p);
      KeySetCons(p[0], p[1..]);
      assert p == [p[0]] + p[1..];
      ToMapSnoc(p[1..], e);
      assert ToMap(p[1..])[e.key := e.value][p[0].key := p[0].value]
          == ToMap(p[1..])[p[0].key := p[0].value][e.key := e.value];
    }
  }

  // ---------------------------------------------------------------------------
  // Small facts about the definitions

  lemma KeySetCons<V>(e: Entry<V>, s: seq<Entry<V>>)
    ensures KeySet([e] + s) == {e.key} + KeySet(s)
  {
    var t := [e] + s;
    forall x | x in KeySet(s) ensures x in KeySet(t) {
      var j :| 0 <= j < |s| && s[j].key == x;
      assert t[j + 1].key == x;
    }
    forall x | x in KeySet(t) ensures x in {e.key} + KeySet(s) {
      var j :| 0 <= j < |t| && t[j].key == x;
      if j > 0 { assert s[j - 1].key == x; }
    }
    assert t[0].key == e.key;
  }

  lemma AscendingSlice<V>(s: seq<Entry<V>>, a: nat, b: nat)
    requires Ascending(s) && a <= b <= |s|
    ensures Ascending(s[a..b])
  {
    forall i, j | 0 <= i < j < b - a ensures s[a..b][i].key < s[a..b][j].key {
      assert s[a..b][i] == s[a + i] && s[a..b][j] == s[a + j];
    }
  }

  /** In a sorted sequence, the entry at `i` holds the first (last) key exactly when `i` is the first (last) index. */
  lemma BoundaryIndex<V>(s: seq<Entry<V>>, i: nat)
    requires Ascending(s) && i < |s|
    ensures s[0].key == s[i].key <==> i == 0
    ensures s[|s| - 1].key == s[i].key <==> i == |s| - 1
    ensures IsBoundaryKey(s, s[i].key) <==> i == 0 || i == |s| - 1
  {
    if i > 0 {
      assert s[0].key < s[i].key;
    }
    if i < |s| - 1 {
      assert s[i].key < s[|s| - 1].key;
    }
  }

  /** Splicing an entry in between a smaller and a larger key keeps the sequence sorted. */
  lemma InsertAscending<V>(s: seq<Entry<V>>, i: nat, e: Entry<V>)
    requires Ascending(s) && i <= |s|
    requires i > 0 ==> s[i - 1].key < e.key
    requires i < |s| ==> e.key < s[i].key
    ensures Ascending(s[..i] + [e] + s[i..])
  {
    var r := s[..i] + [e] + s[i..];
    assert forall j :: 0 <= j < |r| ==> r[j] == if j < i then s[j] else if j == i then e else s[j - 1];
    forall a, b | 0 <= a < b < |r| ensures r[a].key < r[b].key {
      if a < i && i < b {
        assert s[a].key <= s[i - 1].key;
      } else if a == i && b > i {
        assert s[i].key <= s[b - 1].key;
      } else if a < i && b == i {
        assert s[a].key <= s[i - 1].key;
      }
    }
  }

  /** Replacing an entry by one with the same key keeps the sequence sorted. */
  lemma ReplaceAscending<V>(s: seq<Entry<V>>, i: nat, e: Entry<V>)
    requires Ascending(s) && i < |s| && e.key == s[i].key
    ensures Ascending(s[i := e])
  {
    var r := s[i := e];
    forall a, b | 0 <= a < b < |r| ensures r[a].key < r[b].key {
      assert r[a].key == s[a].key && r[b].key == s[b].key;
    }
  }

  lemma AscendingCons<V>(e: Entry<V>, t: seq<Entry<V>>)
    requires Ascending(t)
    requires forall j :: 0 <= j < |t| ==> e.key < t[j].key
    ensures Ascending([e] + t)
  {
    var r := [e] + t;
    forall a, b | 0 <= a < b < |r| ensures r[a].key < r[b].key {
      assert r[b] == t[b - 1];
      if a > 0 { assert r[a] == t[a - 1]; }
    }
  }

  lemma AscendingTail<V>(s: seq<Entry<V>>)
    requires Ascending(s) && s != []
    ensures Ascending(s[1..])
  {
  }
}

=== FILE: pcm.dfy ===
/**
 * Byte-level steps of the audio output queue: the in-place conversion of unsigned PCM
 * sample data to the signed format the output line is opened with, the line's initial
 * "last frame", and the copy of the last frame written.
 *
 * Bytes are Java's signed bytes. The conversion touches every even-index byte, the high
 * byte of a big-endian 16-bit sample; odd-index (low) bytes are left alone.
 */
module Pcm {

  /** Java's signed 8-bit `byte`. */
  type JByte = x: int | -128 <= x < 128

  /** `b & 0xff`: the byte's eight bits read as an unsigned number. */
  function Unsigned(b: JByte): (u: int)
    ensures 0 <= u < 256
    ensures u % 128 == b % 128
    ensures u >= 128 <==> b < 0
  {
    if b < 0 then b + 256 else b
  }

  /** Java's narrowing `(byte)` cast: keep the low eight bits, read them as two's complement. */
  function ToByte(x: int): (b: JByte)
    ensures (x - b) % 256 == 0
    ensures -128 <= x < 128 ==> b == x
  {
    (x + 128) % 256 - 128
  }

  /** One high byte of the conversion, `(byte)((b & 0xff) - 0x80)`. */
  function ToSignedSample(b: JByte): (r: JByte)
    ensures r < 0 <==> b >= 0
    ensures (r - b) % 256 == 128
  {
    ToByte(Unsigned(b) - 0x80)
  }

  /** The whole buffer after conversion: even-index bytes converted, odd-index bytes kept. */
  ghost function Converted(s: seq<JByte>): seq<JByte> {
    seq(|s|, i requires 0 <= i < |s| => if i % 2 == 0 then ToSignedSample(s[i]) else s[i])
  }

  /** The line's initial last frame: -128 at even indices, 0 at odd ones. */
  ghost function InitialFrame(n: nat): seq<JByte> {
    seq(n, b requires 0 <= b < n => if b % 2 == 0 then -128 else 0)
  }

  // ---------------------------------------------------------------------------
  // What the conversion means

  /**
   * The conversion flips the top bit of the byte and keeps the other seven: as unsigned
   * numbers, the result is the input plus 128 modulo 256.
   */
  lemma ToSignedFlipsTopBit(b: JByte)
    ensures Unsigned(ToSignedSample(b)) == (Unsigned(b) + 128) % 256
    ensures Unsigned(ToSignedSample(b)) % 128 == Unsigned(b) % 128
    ensures Unsigned(ToSignedSample(b)) >= 128 <==> Unsigned(b) < 128
  {
    var u := Unsigned(b);
    assert ToSignedSample(b) == u - 128;
    if u >= 128 {
      assert (u + 128) % 256 == u - 128;
    }
  }

  /**
   * On a big-endian 16-bit sample with high byte `hi` and low byte `lo`, converting the
   * high byte turns the offset-binary (unsigned) value into the two's-complement (signed)
   * value of the same sound: it subtracts the midpoint 0x8000.
   */
  lemma SampleShiftedByMidpoint(hi: JByte, lo: JByte)
    ensures 256 * ToSignedSample(hi) + Unsigned(lo) == 256 * Unsigned(hi) + Unsigned(lo) - 0x8000
  {
    assert ToSignedSample(hi) == Unsigned(hi) - 128;
  }

  /** Converting twice restores the byte. */
  lemma ToSignedInvolution(b: JByte)
    ensures ToSignedSample(ToSignedSample(b)) == b
  {
    ToSignedFlipsTopBit(b);
    var r := ToSignedSample(b);
    assert r == Unsigned(b) - 128;
    assert ToSignedSample(r) == Unsigned(r) - 128;
  }

  /**
   * The buffer conversion keeps the length and the odd-index bytes, and converting twice
   * restores the buffer.
   */
  lemma ConvertedInvolution(s: seq<JByte>)
    ensures |Converted(s)| == |s|
    ensures forall i :: 0 <= i < |s| && i % 2 == 1 ==> Converted(s)[i] == s[i]
    ensures Converted(Converted(s)) == s
  {
    forall i | 0 <= i < |s| && i % 2 == 0 ensures Converted(Converted(s))[i] == s[i] {
      ToSignedInvolution(s[i]);
    }
  }

  /**
   * The initial last frame is a frame of all-zero unsigned samples after conversion: the
   * lowest signed sample value in every high byte.
   */
  lemma InitialFrameIsConvertedZeros(n: nat)
    ensures InitialFrame(n) == Converted(seq(n, _ => 0))
  {
    assert ToSignedSample(0) == -128;
  }

  // ---------------------------------------------------------------------------
  // The loops

  /** The drain loop's conversion: for i = 0, 2, 4, ... the byte is converted in place. */
  method ConvertUnsignedToSigned(samples: array<JByte>)
    modifies samples
    ensures samples[..] == Converted(old(samples[..]))
  {
    ghost var s := samples[..];
    ghost var pairs := 0;
    var i := 0;
    while i < samples.Length
      invariant i == 2 * pairs && i <= samples.Length + 1
      invariant forall j :: 0 <= j < i && j < samples.Length ==> samples[j] == Converted(s)[j]
      invariant forall j :: i <= j < samples.Length ==> samples[j] == s[j]
    {
      ConvertedPair(s, pairs);
      samples[i] := ToSignedSample(samples[i]);
      i, pairs := i + 2, pairs + 1;
    }
  }

  /** The pair of bytes at 2m and 2m + 1 after conversion: the high byte converted, the low one kept. */
  lemma ConvertedPair(s: seq<JByte>, m: nat)
    requires 2 * m < |s|
    ensures Converted(s)[2 * m] == ToSignedSample(s[2 * m])
    ensures 2 * m + 1 < |s| ==> Converted(s)[2 * m + 1] == s[2 * m + 1]
  {
    assert (2 * m) % 2 == 0 && (2 * m + 1) % 2 == 1;
  }

  /** The constructor's initialisation of m_lineLastFrame. */
  method NewLastFrame(n: nat) returns (frame: array<JByte>)
    ensures fresh(frame) && frame[..] == InitialFrame(n)
  {
    frame := new JByte[n];
    var b := 0;
    while b < n
      invariant 0 <= b <= n
      invariant forall j :: 0 <= j < b ==> frame[j] == InitialFrame(n)[j]
    {
      frame[b] := if b % 2 == 0 then -128 else 0;
      b := b + 1;
    }
  }

  /**
   * The copy after each write: the last frame becomes the last `lastFrame.Length` bytes of
   * the payload. A payload shorter than a frame would index before its start.
   */
  method CopyLastFrame(samples: array<JByte>, lastFrame: array<JByte>)
    requires samples != lastFrame && lastFrame.Length <= samples.Length
    modifies lastFrame
    ensures lastFrame[..] == samples[samples.Length - lastFrame.Length..]
  {
    var n, len := lastFrame.Length, samples.Length;
    var b := 0;
    while b < n
      invariant 0 <= b <= n
      invariant forall j :: 0 <= j < b ==> lastFrame[j] == samples[len - n + j]
    {
      lastFrame[b] := samples[len - (n - b)];
      b := b + 1;
    }
  }
}

=== FILE: sorted_queue.dfy ===
/**
 * LinkedSortedQueue: a sorted, doubly-linked map from keys to values with a pointer at
 * each end, so that insertion, search and removal can start from either the smallest
 * (`head`) or the largest (`tail`) key.
 *
 * The nodes are heap objects whose `previous`/`next` links are rewired in place. The ghost
 * field `nodes` lists the nodes met following `next` from `head`; `Contents()` is that
 * chain's key/value sequence, and every operation is specified against it.
 */
module SortedQueue {
  import opened Entries

  const INT_MIN: int := -0x8000_0000
  const INT_MAX: int := 0x7fff_ffff

  /** A link of the chain. Key and value are fixed when the node is made; only the links change. */
  class Node<V> {
    const key: int
    const value: V
    var previous: Node?<V>
    var next: Node?<V>

    constructor (k: int, v: V)
      ensures key == k && value == v && previous == null && next == null
    {
      key, value := k, v;
      previous, next := null, null;
    }
  }

  ghost function EntriesOf<V>(ns: seq<Node<V>>): seq<Entry<V>> {
    seq(|ns|, i requires 0 <= i < |ns| => Entry(ns[i].key, ns[i].value))
  }

  lemma EntriesOfSlice<V>(ns: seq<Node<V>>, a: nat, b: nat)
    requires a <= b <= |ns|
    ensures EntriesOf(ns[a..b]) == EntriesOf(ns)[a..b]
  {
  }

  /** Where the search of an insertion stopped, and what it does there. */
  datatype Step =
    | Replace      // the node holds the key: the new node takes its place
    | LinkBefore   // the key lies between the node and its predecessor
    | LinkLast     // the node is the last one and holds a smaller key
    | LinkFirst    // the node is the first one and holds a larger key
    | Corrupt      // "Internal DataStructure seems to be corrupt."

  /** Java's `--count` on an int: decrementing Integer.MIN_VALUE wraps to Integer.MAX_VALUE. */
  function DecrementInt(c: int): (r: int)
    ensures INT_MIN <= c <= INT_MAX ==> INT_MIN <= r <= INT_MAX && (c - 1 - r) % 0x1_0000_0000 == 0
  {
    if c == INT_MIN then INT_MAX else c - 1
  }

  /** How many of `n` entries clearSpecified(count) evicts: count - 1 of them, but never the last one. */
  function TrimmedCount(count: int, n: nat): (r: nat)
    ensures n > 0 ==> r < n
    ensures r <= if DecrementInt(count) > 0 then DecrementInt(count) else 0
    ensures r == 0 || r == DecrementInt(count) || r == n - 1
  {
    var d := DecrementInt(count);
    if d <= 0 || n == 0 then 0 else if d < n - 1 then d else n - 1
  }

  /**
   * The closed form agrees with traverseNodesAndRemove's recursion: while `--count` stays
   * positive and the head has a successor, one node goes and the rest is trimmed with the
   * decremented count.
   */
  lemma TrimmedCountRecurrence(count: int, n: nat)
    requires INT_MIN <= count <= INT_MAX
    ensures TrimmedCount(count, n) ==
              if DecrementInt(count) > 0 && n > 1 then 1 + TrimmedCount(DecrementInt(count), n - 1) else 0
  {
  }

  class LinkedSortedQueue<V> {
    var head: Node?<V>
    var tail: Node?<V>
    /** The nodes met following `next` from `head`, in order. */
    ghost var nodes: seq<Node<V>>

    ghost function Contents(): seq<Entry<V>>
      reads this
    {
      EntriesOf(nodes)
    }

    /** Following `next` from `head` meets exactly `nodes`, with strictly ascending keys. */
    ghost predicate ForwardChain()
      reads this, nodes
    {
      && (head == null <==> nodes == [])
      && (nodes != [] ==> head == nodes[0] && nodes[|nodes| - 1].next == null)
      && (forall j :: 0 <= j < |nodes| - 1 ==> nodes[j].next == nodes[j + 1])
      && Ascending(Contents())
    }

    /** The queue's invariant: the forward chain, mirrored by `previous`, with `tail` at its end. */
    ghost predicate Valid()
      reads this, nodes
    {
      && ForwardChain()
      && (tail == null <==> nodes == [])
      && (nodes != [] ==> tail == nodes[|nodes| - 1] && nodes[0].previous == null)
      && (forall j :: 0 < j < |nodes| ==> nodes[j].previous == nodes[j - 1])
    }

    /** Strictly ascending keys make the chain's nodes pairwise distinct. */
    lemma DistinctNodes()
      requires ForwardChain()
      ensures forall a, b :: 0 <= a < b < |nodes| ==> nodes[a] != nodes[b]
    {
      forall a, b | 0 <= a < b < |nodes| ensures nodes[a] != nodes[b] {
        assert Contents()[a].key < Contents()[b].key;
      }
    }

    /**
     * A key identifies its node: two nodes of the chain with equal keys are the same node.
     * So find from `head` and find from `tail` return the same node.
     */
    lemma KeyDeterminesNode(a: Node<V>, b: Node<V>)
      requires ForwardChain() && a in nodes && b in nodes && a.key == b.key
      ensures a == b
    {
      var i :| 0 <= i < |nodes| && nodes[i] == a;
      var j :| 0 <= j < |nodes| && nodes[j] == b;
      assert Contents()[i].key == a.key && Contents()[j].key == b.key;
    }

    constructor ()
      ensures Valid() && Contents() == [] && nodes == []
    {
      head, tail := null, null;
      nodes := [];
    }

    method IsEmpty() returns (empty: bool)
      requires Valid()
      ensures empty <==> Contents() == []
    {
      empty := head == null;
    }

    /** The smallest key, without removing it. */
    method FirstKey() returns (k: Option<int>)
      requires Valid()
      ensures k.None? <==> Contents() == []
      ensures k.Some? ==> k.value in KeySet(Contents())
      ensures k.Some? ==> forall j :: 0 <= j < |Contents()| ==> k.value <= Contents()[j].key
    {
      if head == null {
        return None;
      }
      k := Some(head.key);
      assert Contents()[0].key == head.key;
    }

    method Clear()
      modifies this
      ensures Valid() && Contents() == []
    {
      head, tail := null, null;
      nodes := [];
    }

    /** "Removing first element": the second node becomes the head, or the queue empties. */
    method DropHead()
      requires Valid() && nodes != []
      modifies this, nodes
      ensures Valid() && nodes == old(nodes)[1..]
      ensures head == null <==> |old(nodes)| == 1
      ensures |old(nodes)| > 1 ==> tail == old(tail)
    {
      assert |nodes| > 1 ==> head.next == nodes[1];
      if head.next == null {
        Clear();
      } else {
        DistinctNodes();
        EntriesOfSlice(nodes, 1, |nodes|);
        AscendingSlice(Contents(), 1, |nodes|);
        head := head.next;
        head.previous := null;
        nodes := nodes[1..];
        assert nodes == old(nodes)[1..|old(nodes)|];
      }
    }

    /** "Removing last element": the last but one node becomes the tail, or the queue empties. */
    method DropTail()
      requires Valid() && nodes != []
      modifies this, nodes
      ensures Valid() && nodes == old(nodes)[..|old(nodes)| - 1]
      ensures tail == null <==> |old(nodes)| == 1
      ensures |old(nodes)| > 1 ==> head == old(head)
    {
      assert |nodes| > 1 ==> tail.previous == nodes[|nodes| - 2];
      if tail.previous == null {
        Clear();
      } else {
        DistinctNodes();
        EntriesOfSlice(nodes, 0, |nodes| - 1);
        AscendingSlice(Contents(), 0, |nodes| - 1);
        tail := tail.previous;
        tail.next := null;
        nodes := nodes[..|nodes| - 1];
      }
    }

    /** Removes and returns the entry with the smallest key; None, with no change, when empty. */
    method FirstEntryRemove() returns (first: Option<Entry<V>>)
      requires Valid()
      modifies this, nodes
      ensures Valid()
      ensures old(Contents()) == [] ==> first == None && nodes == old(nodes)
      ensures old(Contents()) != [] ==> first == Some(old(Contents())[0]) && Contents() == old(Contents())[1..]
      ensures old(nodes) != [] ==> nodes == old(nodes)[1..]
      ensures head == null <==> |old(Contents())| <= 1
      ensures first.Some? ==> forall j :: 0 <= j < |Contents()| ==> first.value.key < Contents()[j].key
    {
      if head == null {
        return None;
      }
      first := Some(Entry(head.key, head.value));
      DropHead();
      assert old(Contents())[0] == Entry(old(nodes)[0].key, old(nodes)[0].value);
      assert Contents() == old(Contents())[1..];
    }

    /** Removes the entry with the smallest key and returns that key; None, with no change, when empty. */
    method FirstKeyRemove() returns (key: Option<int>)
      requires Valid()
      modifies this, nodes
      ensures Valid()
      ensures old(Contents()) == [] ==> key == None && nodes == old(nodes)
      ensures old(Contents()) != [] ==> key == Some(old(Contents())[0].key) && Contents() == old(Contents())[1..]
      ensures head == null <==> |old(Contents())| <= 1
      ensures key.Some? ==> forall j :: 0 <= j < |Contents()| ==> key.value < Contents()[j].key
    {
      if head == null {
        return None;
      }
      key := Some(head.key);
      DropHead();
      assert Contents() == old(Contents())[1..];
    }

    /** Removes the entry with the smallest key and returns its value; None, with no change, when empty. */
    method FirstKeyValueRemove() returns (value: Option<V>)
      requires Valid()
      modifies this, nodes
      ensures Valid()
      ensures old(Contents()) == [] ==> value == None && nodes == old(nodes)
      ensures old(Contents()) != [] ==> value == Some(old(Contents())[0].value) && Contents() == old(Contents())[1..]
      ensures head == null <==> |old(Contents())| <= 1
    {
      if head == null {
        return None;
      }
      value := Some(head.value);
      DropHead();
      assert Contents() == old(Contents())[1..];
    }

    /**
     * The walk of insertNode: starting at `tail` or `head`, compare with each node (and its
     * predecessor) until the node where the new key is to be linked is found.
     */
    method Locate(k: int, startFromLast: bool) returns (at: Node<V>, step: Step, ghost i: nat)
      requires Valid() && head != null
      ensures i < |nodes| && at == nodes[i]
      ensures step != Corrupt
      ensures step == Replace ==> at.key == k
      ensures step == LinkBefore ==> 0 < i && nodes[i - 1].key < k < at.key
      ensures step == LinkLast ==> i == |nodes| - 1 && at.key < k
      ensures step == LinkFirst ==> i == 0 && k < at.key
    {
      ghost var keys := Contents();
      if startFromLast {
        at, i := tail, |nodes| - 1;
      } else {
        at, i := head, 0;
      }
      while true
        invariant i < |nodes| && at == nodes[i]
        invariant startFromLast ==> forall j :: i < j < |nodes| ==> k < nodes[j].key
        invariant startFromLast && i < |nodes| - 1 ==> k <= at.key
        invariant !startFromLast ==> forall j :: 0 <= j < i ==> nodes[j].key < k
        decreases if startFromLast then i else |nodes| - i
      {
        assert keys[i].key == at.key;
        assert at.previous == if i > 0 then nodes[i - 1] else null;
        assert at.next == if i < |nodes| - 1 then nodes[i + 1] else null;
        if at.key == k {
          return at, Replace, i;
        }
        if at.previous != null {
          assert at.previous == nodes[i - 1] && keys[i - 1].key == at.previous.key;
          if at.key > k && k > at.previous.key {
            return at, LinkBefore, i;
          } else if at.key > k {
            at, i := at.previous, i - 1;
          } else if at.key < k {
            if at.next == null {
              return at, LinkLast, i;
            } else {
              at, i := at.next, i + 1;
            }
          } else {
            return at, Corrupt, i;
          }
        } else {
          if at.key > k {
            return at, LinkFirst, i;
          } else if at.key < k {
            if at.next == null {
              return at, LinkLast, i;
            } else {
              at, i := at.next, i + 1;
            }
          } else {
            return at, Corrupt, i;
          }
        }
      }
    }

    // -------------------------------------------------------------------------
    // The splices insertNode performs once the walk has stopped at `at`.

    /** "Inserting between this and previous". */
    method SpliceBefore(newNode: Node<V>, at: Node<V>, ghost i: nat)
      requires Valid() && 0 < i < |nodes| && at == nodes[i]
      requires nodes[i - 1].key < newNode.key < at.key
      requires newNode !in nodes && newNode.previous == null && newNode.next == null
      modifies this`nodes, nodes[i - 1], at, newNode
      ensures Valid()
      ensures Contents() == old(Contents())[..i] + [Entry(newNode.key, newNode.value)] + old(Contents())[i..]
      ensures forall n :: n in nodes ==> n in old(nodes) || n == newNode
    {
      DistinctNodes();
      ghost var ns := nodes;
      ghost var prev := ns[i - 1];
      at.previous.next := newNode;
      newNode.previous := at.previous;
      newNode.next := at;
      at.previous := newNode;
      nodes := nodes[..i] + [newNode] + nodes[i..];
      assert forall j :: 0 <= j < |nodes| ==> nodes[j] == if j < i then ns[j] else if j == i then newNode else ns[j - 1];
      // Only prev.next, newNode's links and at.previous were written.
      forall j | 0 <= j < |nodes| - 1 ensures nodes[j].next == nodes[j + 1] {
        if j < i - 1 {
          assert ns[j] != prev && old(ns[j].next) == ns[j + 1];
        } else if j > i {
          assert ns[j - 1] != prev && old(ns[j - 1].next) == ns[j];
        }
      }
      forall j | 0 < j < |nodes| ensures nodes[j].previous == nodes[j - 1] {
        if j < i {
          assert ns[j] != at && old(ns[j].previous) == ns[j - 1];
        } else if j > i + 1 {
          assert ns[j - 1] != at && old(ns[j - 1].previous) == ns[j - 2];
        }
      }
      assert Contents() == old(Contents())[..i] + [Entry(newNode.key, newNode.value)] + old(Contents())[i..];
      InsertAscending(old(Contents()), i, Entry(newNode.key, newNode.value));
    }

    /** "This is the last element, add at the end": the new node becomes the tail. */
    method SpliceLast(newNode: Node<V>, at: Node<V>)
      requires Valid() && nodes != [] && at == nodes[|nodes| - 1]
      requires at.key < newNode.key
      requires newNode !in nodes && newNode.previous == null && newNode.next == null
      modifies this, at, newNode
      ensures Valid() && head == old(head) && tail == newNode
      ensures Contents() == old(Contents()) + [Entry(newNode.key, newNode.value)]
      ensures forall n :: n in nodes ==> n in old(nodes) || n == newNode
    {
      DistinctNodes();
      ghost var ns := nodes;
      at.next := newNode;
      newNode.previous := at;
      tail := newNode;
      nodes := nodes + [newNode];
      assert forall j :: 0 <= j < |nodes| ==> nodes[j] == if j < |ns| then ns[j] else newNode;
      assert Contents() == old(Contents())[..|ns|] + [Entry(newNode.key, newNode.value)] + old(Contents())[|ns|..];
      InsertAscending(old(Contents()), |ns|, Entry(newNode.key, newNode.value));
    }

    /** "Make newNode the first element": the new node becomes the head. */
    method SpliceFirst(newNode: Node<V>, at: Node<V>)
      requires Valid() && nodes != [] && at == nodes[0]
      requires newNode.key < at.key
      requires newNode !in nodes && newNode.previous == null && newNode.next == null
      modifies this, at, newNode
      ensures Valid() && head == newNode && tail == old(tail)
      ensures Contents() == [Entry(newNode.key, newNode.value)] + old(Contents())
      ensures forall n :: n in nodes ==> n in old(nodes) || n == newNode
    {
      DistinctNodes();
      ghost var ns := nodes;
      at.previous := newNode;
      newNode.next := at;
      head := newNode;
      nodes := [newNode] + nodes;
      assert forall j :: 0 <= j < |nodes| ==> nodes[j] == if j == 0 then newNode else ns[j - 1];
      assert Contents() == old(Contents())[..0] + [Entry(newNode.key, newNode.value)] + old(Contents())[0..];
      InsertAscending(old(Contents()), 0, Entry(newNode.key, newNode.value));
    }

    /**
     * The equal-key branch of insertNode as written: the neighbours of `at` are pointed at
     * the new node, but `head` and `tail` are not touched. Only an interior node is fully
     * replaced; at either end the chain is left inconsistent, and a lone node is not
     * replaced at all.
     */
    method ReplaceAsWritten(newNode: Node<V>, at: Node<V>, ghost i: nat)
      requires Valid() && i < |nodes| && at == nodes[i] && at.key == newNode.key
      requires newNode !in nodes && newNode.previous == null && newNode.next == null
      modifies this`nodes, nodes, newNode
      ensures forall n :: n in nodes ==> n in old(nodes) || n == newNode
      ensures head == old(head) && tail == old(tail) && |nodes| == |old(nodes)|
      ensures 0 < i < |old(nodes)| - 1 ==>
                Valid() && Contents() == old(Contents())[i := Entry(newNode.key, newNode.value)]
      ensures |old(nodes)| == 1 ==> Valid() && nodes == old(nodes)
      ensures i == 0 < |old(nodes)| - 1 ==> ForwardChain() && nodes == old(nodes) && !Valid()
      ensures 0 < i == |old(nodes)| - 1 ==>
                ForwardChain() && Contents() == old(Contents())[i := Entry(newNode.key, newNode.value)] && tail !in nodes
                && tail != null && tail.next == null
    {
      DistinctNodes();
      ghost var ns, s := nodes, Contents();
      ghost var e := Entry(newNode.key, newNode.value);
      assert s[i].key == at.key;
      assert at.previous == if i > 0 then nodes[i - 1] else null;
      assert at.next == if i < |nodes| - 1 then nodes[i + 1] else null;
      if at.previous != null {
        at.previous.next := newNode;
        newNode.previous := at.previous;
      }
      if at.next != null {
        newNode.next := at.next;
        at.next.previous := newNode;
      }
      if 0 < i {
        nodes := nodes[i := newNode];
        assert forall j :: 0 <= j < |nodes| && j != i ==> nodes[j] == ns[j];
        assert Contents() == s[i := e];
        ReplaceAscending(s, i, e);
      } else if 1 < |nodes| {
        assert nodes[1].previous == newNode != nodes[0];
      }
    }

    /**
     * The equal-key branch with the boundary pointers re-aimed as well: the new node takes
     * `at`'s place in the chain and, when `at` was an end, in `head` or `tail`.
     */
    method ReplaceNode(newNode: Node<V>, at: Node<V>, ghost i: nat)
      requires Valid() && i < |nodes| && at == nodes[i] && at.key == newNode.key
      requires newNode !in nodes && newNode.previous == null && newNode.next == null
      modifies this, nodes, newNode
      ensures Valid() && nodes == old(nodes)[i := newNode]
      ensures Contents() == old(Contents())[i := Entry(newNode.key, newNode.value)]
      ensures forall n :: n in nodes ==> n in old(nodes) || n == newNode
    {
      DistinctNodes();
      ghost var ns := nodes;
      assert at.previous == if i > 0 then nodes[i - 1] else null;
      assert at.next == if i < |nodes| - 1 then nodes[i + 1] else null;
      if at.previous != null {
        at.previous.next := newNode;
        newNode.previous := at.previous;
      }
      if at.next != null {
        newNode.next := at.next;
        at.next.previous := newNode;
      }
      if at == head {
        head := newNode;
      }
      if at == tail {
        tail := newNode;
      }
      nodes := nodes[i := newNode];
      assert forall j :: 0 <= j < |nodes| && j != i ==> nodes[j] == ns[j];
      assert Contents() == old(Contents())[i := Entry(newNode.key, newNode.value)];
      ReplaceAscending(old(Contents()), i, Entry(newNode.key, newNode.value));
    }

    /**
     * Links a new key where the walk stopped: before `at`, after the last node or before the
     * first one. The result is the sorted insertion of the new entry; `head` moves exactly
     * when the key is a new minimum, `tail` exactly when it is a new maximum.
     */
    method LinkNew(newNode: Node<V>, at: Node<V>, step: Step, ghost i: nat)
      requires Valid() && i < |nodes| && at == nodes[i]
      requires newNode !in nodes && newNode.previous == null && newNode.next == null
      requires step == LinkBefore ==> 0 < i && nodes[i - 1].key < newNode.key < at.key
      requires step == LinkLast ==> i == |nodes| - 1 && at.key < newNode.key
      requires step == LinkFirst ==> i == 0 && newNode.key < at.key
      requires step == LinkBefore || step == LinkLast || step == LinkFirst
      modifies this, nodes, newNode
      ensures Valid() && Contents() == Upsert(old(Contents()), newNode.key, newNode.value)
      ensures newNode.key !in KeySet(old(Contents())) && |nodes| == |old(nodes)| + 1
      ensures head != old(head) <==> newNode.key < old(Contents())[0].key
      ensures tail != old(tail) <==> old(Contents())[|old(nodes)| - 1].key < newNode.key
      ensures forall n :: n in nodes ==> n in old(nodes) || n == newNode
    {
      ghost var s := Contents();
      ghost var k, v := newNode.key, newNode.value;
      assert s[i].key == at.key;
      match step
      case LinkBefore =>
        assert s[0].key <= s[i - 1].key && at.key <= s[|s| - 1].key;
        UpsertAt(s, i, k, v);
        SpliceBefore(newNode, at, i);
      case LinkLast =>
        assert s[0].key <= at.key;
        UpsertAt(s, |s|, k, v);
        SpliceLast(newNode, at);
      case LinkFirst =>
        assert at.key <= s[|s| - 1].key;
        UpsertAt(s, 0, k, v);
        SpliceFirst(newNode, at);
      UpsertKeys(s, k, v);
    }

    // -------------------------------------------------------------------------
    // Insertion

    /**
     * put(k, v, startFromLast) as written. An absent key is spliced in at its sorted place,
     * searching from `tail` or `head`; a present key never adds a node. An interior
     * duplicate replaces its node; a duplicate of the smallest or largest key leaves the
     * chain inconsistent (see the last three postconditions).
     */
    method Put(k: int, v: V, startFromLast: bool)
      requires Valid()
      modifies this, nodes
      ensures |nodes| == if k in KeySet(old(Contents())) then |old(nodes)| else |old(nodes)| + 1
      ensures k !in KeySet(old(Contents())) ==> Valid() && Contents() == Upsert(old(Contents()), k, v)
      ensures k !in KeySet(old(Contents())) ==>
                (head != old(head) <==> old(Contents()) == [] || k < old(Contents())[0].key)
      ensures k !in KeySet(old(Contents())) ==>
                (tail != old(tail) <==> old(Contents()) == [] || old(Contents())[|old(nodes)| - 1].key < k)
      ensures k in KeySet(old(Contents())) ==> head == old(head) && tail == old(tail)
      ensures k in KeySet(old(Contents())) && !IsBoundaryKey(old(Contents()), k) ==>
                Valid() && Contents() == Upsert(old(Contents()), k, v)
      // a duplicate of the only key is dropped: nothing changes
      ensures k in KeySet(old(Contents())) && |old(nodes)| == 1 ==> Valid() && nodes == old(nodes)
      // a duplicate of the smallest key: `head` keeps the old node (and value), while the
      // second node's `previous` now points at the new, unreachable node
      ensures |old(nodes)| > 1 && k == old(Contents())[0].key ==>
                ForwardChain() && nodes == old(nodes) && !Valid()
      // a duplicate of the largest key: the chain from `head` ends in the new node, but
      // `tail` still points at the old one, which is no longer on that chain
      ensures |old(nodes)| > 1 && k == old(Contents())[|old(nodes)| - 1].key ==>
                ForwardChain() && Contents() == Upsert(old(Contents()), k, v) && tail !in nodes
                && tail != null && tail.next == null
      ensures fresh(set n | n in nodes && n !in old(nodes))
    {
      var newNode := new Node(k, v);
      if head == null {
        head, tail := newNode, newNode;
        nodes := [newNode];
        return;
      }
      var at, step, i := Locate(k, startFromLast);
      if step == Replace {
        ghost var s := Contents();
        assert s[i].key == k;
        UpsertReplaceAt(s, i, v);
        UpsertKeys(s, k, v);
        BoundaryIndex(s, i);
        ReplaceAsWritten(newNode, at, i);
      } else {
        LinkNew(newNode, at, step, i);
      }
    }

    /** put(k, v): insertion searching from the tail. */
    method PutFromTail(k: int, v: V)
      requires Valid()
      modifies this, nodes
      ensures |nodes| == if k in KeySet(old(Contents())) then |old(nodes)| else |old(nodes)| + 1
      ensures k !in KeySet(old(Contents())) || !IsBoundaryKey(old(Contents()), k) ==>
                Valid() && Contents() == Upsert(old(Contents()), k, v)
      ensures fresh(set n | n in nodes && n !in old(nodes))
    {
      Put(k, v, true);
    }

    /**
     * put with the equal-key branch corrected to re-aim `head`/`tail` as well: every
     * insertion, duplicate or not, keeps the queue valid and acts as a sorted
     * insert-or-replace.
     */
    method PutReplacing(k: int, v: V, startFromLast: bool)
      requires Valid()
      modifies this, nodes
      ensures Valid() && Contents() == Upsert(old(Contents()), k, v)
      ensures |nodes| == if k in KeySet(old(Contents())) then |old(nodes)| else |old(nodes)| + 1
      ensures fresh(set n | n in nodes && n !in old(nodes))
    {
      var newNode := new Node(k, v);
      if head == null {
        head, tail := newNode, newNode;
        nodes := [newNode];
        return;
      }
      var at, step, i := Locate(k, startFromLast);
      if step == Replace {
        ghost var s := Contents();
        assert s[i].key == k;
        UpsertReplaceAt(s, i, v);
        UpsertKeys(s, k, v);
        ReplaceNode(newNode, at, i);
      } else {
        LinkNew(newNode, at, step, i);
      }
    }

    // -------------------------------------------------------------------------
    // Search and removal

    /**
     * find: walk from `tail` towards `head` (or from `head` towards `tail`) until a node
     * holds the key; null when the walk runs off the end.
     */
    method Find(key: int, startFromLast: bool) returns (node: Node?<V>, ghost i: nat)
      requires Valid() && head != null
      ensures node == null <==> key !in KeySet(Contents())
      ensures node != null ==> i < |nodes| && node == nodes[i] && node.key == key
    {
      var at: Node<V>;
      if startFromLast {
        at, i := tail, |nodes| - 1;
      } else {
        at, i := head, 0;
      }
      while true
        invariant i < |nodes| && at == nodes[i]
        invariant startFromLast ==> forall j :: i < j < |nodes| ==> nodes[j].key != key
        invariant !startFromLast ==> forall j :: 0 <= j < i ==> nodes[j].key != key
        decreases if startFromLast then i else |nodes| - i
      {
        if at.key == key {
          assert Contents()[i].key == key;
          return at, i;
        }
        assert at.previous == if i > 0 then nodes[i - 1] else null;
        assert at.next == if i < |nodes| - 1 then nodes[i + 1] else null;
        if startFromLast && at.previous != null {
          at, i := at.previous, i - 1;
        } else if !startFromLast && at.next != null {
          at, i := at.next, i + 1;
        } else {
          assert forall j :: 0 <= j < |nodes| ==> Contents()[j].key == nodes[j].key;
          return null, i;
        }
      }
    }

    /**
     * remove(key, startFromLast): the entry under `key` is cut out of the chain and
     * returned; an absent key (or an empty queue) gives None and changes nothing. `head`
     * or `tail` moves only when the entry at that end is the one removed.
     */
    method Remove(key: int, startFromLast: bool) returns (r: Option<Entry<V>>)
      requires Valid()
      modifies this, nodes
      ensures Valid() && Contents() == RemoveKey(old(Contents()), key)
      ensures KeySet(Contents()) == KeySet(old(Contents())) - {key}
      ensures r.None? <==> key !in KeySet(old(Contents()))
      ensures r.Some? ==> r.value.key == key && Lookup(old(Contents()), key) == Some(r.value.value)
      ensures |nodes| == if r.Some? then |old(nodes)| - 1 else |old(nodes)|
      ensures head != old(head) ==> old(Contents())[0].key == key
      ensures tail != old(tail) ==> old(Contents())[|old(nodes)| - 1].key == key
      ensures r.None? ==> nodes == old(nodes) && head == old(head) && tail == old(tail)
    {
      ghost var s := Contents();
      if head == null {
        RemoveAbsent(s, key);
        return None;
      }
      var node, i := Find(key, startFromLast);
      if node == null {
        RemoveAbsent(s, key);
        return None;
      }
      assert s[i].key == key;
      RemoveAt(s, i);
      var e := RemoveNode(node, i);
      r := Some(e);
    }

    /**
     * The found node is cut out: by advancing `head` when it is the first node, by
     * retreating `tail` when it is the last, and by joining its neighbours otherwise.
     */
    method RemoveNode(node: Node<V>, ghost i: nat) returns (e: Entry<V>)
      requires Valid() && i < |nodes| && node == nodes[i]
      modifies this, nodes
      ensures Valid() && Contents() == old(Contents())[..i] + old(Contents())[i + 1..]
      ensures KeySet(Contents()) == KeySet(old(Contents())) - {e.key}
      ensures e == old(Contents())[i] && |nodes| == |old(nodes)| - 1
      ensures head != old(head) ==> i == 0
      ensures tail != old(tail) ==> i == |old(nodes)| - 1
    {
      ghost var s := Contents();
      e := Entry(node.key, node.value);
      CutProperties(s, i);
      DistinctNodes();
      if node == head {
        assert i == 0;
        DropHead();
        assert s[..0] + s[1..] == s[1..];
      } else if node == tail {
        assert i == |s| - 1;
        DropTail();
        assert s[..i] + s[i + 1..] == s[..i];
      } else {
        Unlink(node, i);
      }
    }

    /** "Re-establishing link by removing matched node from the chain": an interior node is cut out. */
    method Unlink(node: Node<V>, ghost i: nat)
      requires Valid() && 0 < i < |nodes| - 1 && node == nodes[i]
      modifies this`nodes, nodes[i - 1], nodes[i + 1]
      ensures Valid() && nodes == old(nodes)[..i] + old(nodes)[i + 1..]
      ensures Contents() == old(Contents())[..i] + old(Contents())[i + 1..]
    {
      DistinctNodes();
      ghost var ns, s := nodes, Contents();
      CutProperties(s, i);
      assert node.previous == nodes[i - 1] && node.next == nodes[i + 1];
      node.previous.next := node.next;
      node.next.previous := node.previous;
      nodes := nodes[..i] + nodes[i + 1..];
      assert forall j :: 0 <= j < |nodes| ==> nodes[j] == if j < i then ns[j] else ns[j + 1];
      assert Contents() == s[..i] + s[i + 1..];
    }

    /**
     * remove(k): the value under `k`, removed from the queue; None when the queue is empty.
     * On a non-empty queue the key must be present (an absent key dereferences the null
     * that remove(k, false) returns).
     */
    method RemoveValue(k: int) returns (v: Option<V>)
      requires Valid()
      requires Contents() != [] ==> k in KeySet(Contents())
      modifies this, nodes
      ensures Valid() && Contents() == RemoveKey(old(Contents()), k)
      ensures v == Lookup(old(Contents()), k)
    {
      if head == null {
        RemoveAbsent(Contents(), k);
        return None;
      }
      var r := Remove(k, false);
      v := Some(r.value.value);
    }

    // -------------------------------------------------------------------------
    // Eviction, size and the map snapshot

    /**
     * clearSpecified(count): drops the `count - 1` smallest entries by advancing `head`,
     * but always keeps the last node (so `tail` never moves). A queue that is empty when
     * anything would be dropped dereferences a null `head`.
     */
    method ClearSpecified(count: int)
      requires Valid() && INT_MIN <= count <= INT_MAX
      requires Contents() == [] ==> DecrementInt(count) <= 0
      modifies this, nodes
      ensures Valid() && Contents() == old(Contents())[TrimmedCount(count, |old(nodes)|)..]
      ensures tail == old(tail)
      ensures old(Contents()) != [] ==> Contents() != []
    {
      ghost var n := |nodes|;
      var c := DecrementInt(count);
      while c > 0 && head.next != null
        invariant Valid() && tail == old(tail)
        invariant c > 0 ==> nodes != []
        invariant 0 <= n - |nodes| <= TrimmedCount(count, n)
        invariant nodes == old(nodes)[n - |nodes|..]
        invariant DecrementInt(count) > 0 ==> c == DecrementInt(count) - (n - |nodes|)
        invariant DecrementInt(count) <= 0 ==> c == DecrementInt(count) && n == |nodes|
        decreases c
      {
        assert |nodes| > 1 ==> head.next == nodes[1];
        DropHead();
        c := c - 1;
      }
      if head != null {
        assert head.next == if |nodes| > 1 then nodes[1] else null;
      }
      assert n - |nodes| == TrimmedCount(count, n);
      assert Contents() == old(Contents())[n - |nodes|..];
    }

    /** size(): the number of entries, counted along the chain from `head`. */
    method Size() returns (r: int)
      requires Valid()
      ensures r == |Contents()|
    {
      if head == null {
        return 0;
      }
      var node := head;
      ghost var i := 0;
      r := 1;
      while node.next != null
        invariant i < |nodes| && node == nodes[i] && r == i + 1
        invariant node.next == if i < |nodes| - 1 then nodes[i + 1] else null
        decreases |nodes| - i
      {
        node, i, r := node.next, i + 1, r + 1;
      }
    }

    /** getElementMap(): a map holding each entry of the (non-empty) queue. */
    method GetElementMap() returns (m: map<int, V>)
      requires Valid() && head != null
      ensures m == ToMap(Contents())
      ensures m.Keys == KeySet(Contents())
      ensures forall j :: 0 <= j < |Contents()| ==> m[Contents()[j].key] == Contents()[j].value
    {
      ghost var s := Contents();
      var node := head;
      ghost var i := 0;
      m := map[];
      while true
        invariant i < |nodes| && node == nodes[i]
        invariant m == ToMap(s[..i])
        decreases |nodes| - i
      {
        assert s[i] == Entry(node.key, node.value);
        assert forall j :: 0 <= j < i ==> s[..i][j].key < s[i].key;
        ToMapSnoc(s[..i], s[i]);
        assert s[..i + 1] == s[..i] + [s[i]];
        m := m[node.key := node.value];
        assert i < |nodes| - 1 ==> node.next == nodes[i + 1];
        if node.next == null {
          break;
        }
        node, i := node.next, i + 1;
      }
      assert s[..i + 1] == s;
      ToMapKeys(s);
      ToMapValues(s);
    }
  }

  // ---------------------------------------------------------------------------
  // The boundary-duplicate defect on concrete runs

  /**
   * put(1), put(2), then put(2) again: the chain from `head` holds the new value for 2,
   * but `tail` is left on the replaced node, which the chain no longer reaches.
   */
  method DuplicateMaximumScenario() returns (q: LinkedSortedQueue<int>)
    ensures q.ForwardChain() && q.Contents() == [Entry(1, 10), Entry(2, 21)]
    ensures q.tail != null && q.tail !in q.nodes && q.tail.key == 2 && q.tail.value == 20
    ensures q.tail.next == null
    ensures !q.Valid()
    ensures fresh(q) && fresh(q.tail)
  {
    q := new LinkedSortedQueue<int>();
    q.Put(1, 10, true);
    q.Put(2, 20, true);
    assert q.Contents()[1] == Entry(2, 20);
    q.Put(2, 21, true);
    assert Upsert([Entry(1, 10), Entry(2, 20)], 2, 21) == [Entry(1, 10), Entry(2, 21)];
  }

  /**
   * The lasting harm of a duplicate of the largest key. After put(1), put(2), put(2), a
   * put(3) searches from the stale `tail`. That node holds the smaller key 2 and has no
   * successor, so insertNode takes its "add at the end" branch. The new node is linked after
   * the detached one and becomes the tail, but the chain from `head`, which every
   * firstEntryRemove walks, never reaches it: key 3 is lost.
   */
  method DuplicateMaximumLosesLaterKey() returns (q: LinkedSortedQueue<int>)
    ensures q.ForwardChain() && q.Contents() == [Entry(1, 10), Entry(2, 21)]
    ensures 3 !in KeySet(q.Contents())
    ensures q.tail != null && q.tail !in q.nodes && q.tail.key == 3 && q.tail.value == 30
  {
    q := DuplicateMaximumScenario();
    var stale: Node<int> := q.tail;
    var newNode := new Node(3, 30);
    assert stale.key < newNode.key && stale.next == null;
    stale.next := newNode;
    newNode.previous := stale;
    q.tail := newNode;
    assert q.Contents()[0].key == 1 && q.Contents()[1].key == 2;
  }

  /**
   * put(1), put(2), then put(1) again: `head` keeps the old node, so the queue still
   * holds the old value for 1, and the second node's `previous` points at the new node.
   */
  method DuplicateMinimumScenario() returns (q: LinkedSortedQueue<int>)
    ensures q.ForwardChain() && q.Contents() == [Entry(1, 10), Entry(2, 20)]
    ensures q.Contents() != Upsert([Entry(1, 10), Entry(2, 20)], 1, 11)
    ensures !q.Valid()
  {
    q := new LinkedSortedQueue<int>();
    q.Put(1, 10, true);
    q.Put(2, 20, true);
    q.Put(1, 11, true);
    assert Upsert([Entry(1, 10), Entry(2, 20)], 1, 11)[0] == Entry(1, 11);
  }

  /** The same three calls with the corrected put: the new value replaces the old, and the queue stays valid. */
  method DuplicateMaximumCorrected() returns (q: LinkedSortedQueue<int>)
    ensures q.Valid() && q.Contents() == [Entry(1, 10), Entry(2, 21)]
  {
    q := new LinkedSortedQueue<int>();
    q.PutReplacing(1, 10, true);
    q.PutReplacing(2, 20, true);
    q.PutReplacing(2, 21, true);
    assert Upsert([Entry(1, 10), Entry(2, 20)], 2, 21) == [Entry(1, 10), Entry(2, 21)];
  }
}
